=== FILE: README.md ===
# EOF-Bot core, modelled in Dafny

EOF-Bot is a Discord moderation and community bot backed by MongoDB. This
project models the parts of it that decide things. The Discord client, the
embeds and the database driver are not modelled.

The model covers two groups of behaviour.

- **Command and event helpers** from `bot/main.py`:
  - `parse_time`, the duration parser behind `!mute`;
  - the field truncation used when logging deleted and edited messages;
  - the bounds of `!purge`;
  - `is_user_admin` and the restricted-channel gate in `on_message`;
  - the `!role` chain of checks;
  - the member-count channel name and how that channel is found;
  - the filter and counters of `!syncusers`.
- **The collection semantics** of `bot/database.py`, for leveling, users,
  role requests, bug reports and resources.

Each MongoDB collection is a `seq` of records in insertion order. `find_one`
and `update_one` act on the first matching document (`Documents.FindFirst`). MongoDB's natural
order is taken to be insertion order.
The unique index on `(user_id, guild_id)` in `users` is declared in
`mongo-init.js`. It is modelled as a property the operations preserve
(`Documents.UniqueKeys`), not as a precondition.

Sorting with a limit (`sort(...).limit(n)`) is specified relationally by
`Ranking.IsTopN`. Its meaning: the result is the first `n` elements of *some*
descending permutation of the input. This is because MongoDB leaves the order
of ties unspecified. An insertion sort (`Ranking.TopN`) witnesses the relation.
The limit follows MongoDB:
- `0` means no limit;
- a negative limit means its absolute value.

A document missing the sort field sorts below every number.

Discord objects become plain records: an author has an id, role names and an
administrator flag. Side effects the bot cannot decide on its own become
parameters:
- the current time;
- the channel history seen by a purge;
- whether `add_roles` succeeded;
- whether storing each member during a sync succeeded;
- the ids already in the database.

Python's `int()` is modelled as accepting an optional `+`/`-` sign followed by
ASCII digits (`Numerals.ParseInt`).

`bot/database.py` stores whatever level callers pass in: there is no XP
curve, no XP award per message and no cooldown anywhere in `bot/database.py`
or `bot/main.py`, and the model has none either.

## Model

| member | source | states |
|---|---|---|
| Numerals.ParseInt | bot/main.py:1184 | `int()` of a string succeeds exactly on an optional sign followed by at least one ASCII digit; the value is the digits' decimal value, negated exactly when the sign is `-` |
| Numerals.ParseIntOfIntToString | bot/main.py:1184 | reading back the decimal rendering of any integer yields that integer |
| Numerals.DigitsValueOfNatToString | bot/main.py:192 | the digits written for a count denote that count |
| Numerals.IntToStringInjective | bot/main.py:230 | different numbers render as different decimal strings |
| Durations.ParseTime | bot/main.py:1180-1194 | with a unit suffix, the integer before it times 1, 60, 3600 or 86400 when `int()` accepts that prefix, otherwise 600; with no unit suffix, the whole string as minutes when `int()` accepts it, otherwise 600 |
| Durations.ParseTimeWithUnit | bot/main.py:1183-1190 | for every integer n and unit s/m/h/d, the rendered `n` plus the unit parses to n times 1, 60, 3600 or 86400 |
| Durations.ParseTimeBareMinutes | bot/main.py:1191-1192 | a bare integer with no unit is read as minutes |
| Durations.ParseTimeFallbackExamples | bot/main.py:1193-1194 | empty, unit-only, doubly suffixed and non-numeric inputs fall back to 600 s |
| Durations.ParseTimeExamples | bot/main.py:1180-1192 | the default `10m` and `90s`, `2h`, `1d`, `-5m`, `+5s`, `0m` give 600, 90, 7200, 86400, -300, 5 and 0 |
| Durations.AutoUnmuteDelay | bot/main.py:781-783 | the bot waits and unmutes exactly when the parsed duration is non-zero, and a negative duration unmutes immediately |
| Durations.AutoUnmuteWithUnit | bot/main.py:746-783 | for any integer n and unit: no automatic unmute for 0, an immediate one for negative n, otherwise after n times the unit's seconds |
| Durations.AutoUnmuteExamples | bot/main.py:746-783 | the default `10m` unmutes after 600 s; `0s` never unmutes automatically; `-1h` unmutes at once; an unparsable duration unmutes after the 600 s fallback |
| Durations.ParseTimeNonCanonicalExamples | bot/main.py:1183-1190 | literals that `int()` accepts but that are not canonical decimals, `+5m` and `007m`, give 300 and 420 |
| LogFields.FieldValue | bot/main.py:261-264 | the shown text is never empty and never longer than the limit; short text is shown unchanged; empty text shows the placeholder; long text becomes a prefix of itself ending in `...`, exactly at the limit |
| LogFields.MessageField | bot/main.py:439-442 | the same bounds with the 1024-character limit of the deleted-message field |
| LogFields.EditField | bot/main.py:483-492 | the same bounds with the 512-character limit of the before/after fields |
| LogFields.FieldValueIdempotent | bot/main.py:483-492 | truncating an already shown value changes nothing |
| LogFields.MessageFieldCases | bot/main.py:261-264 | empty text shows the placeholder, text of up to 1024 characters is shown unchanged, and longer text becomes exactly its first 1021 characters plus `...` |
| LogFields.EditFieldCases | bot/main.py:489-492 | the same three cases for the 512 limit: longer text becomes its first 509 characters plus `...` |
| LogFields.EditLog | bot/main.py:461-492 | an edit is logged exactly when a log channel is set, the author is not a bot and the content changed; the fields are the before and after texts as the 512-character field shows them (placeholder, unchanged, or cut with `...`) |
| LogFields.DeleteLog | bot/main.py:417-442 | a deletion is logged exactly when a log channel is set and the author is not a bot, and the field is the text as the 1024-character field shows it (placeholder, unchanged, or cut with `...`) |
| LogFields.DeleteLogStable | bot/main.py:439-442 | a deletion with a log channel by a non-bot is always logged, and logging its shown text again shows the same field |
| LogFields.EditLogDistinguishesShortTexts | bot/main.py:483-492 | when both texts fit in 512 characters, the logged before and after fields differ |
| Permissions.AnyIn | bot/main.py:405 | `any(role in ys for role in xs)` holds exactly when some element of the first list is in the second |
| Permissions.IsUserAdmin | bot/main.py:632-637 | a missing user, or a user that is not a guild member and so has no roles, is not an admin; a member is one exactly when a role is Admin or Moderator or the administrator permission is set |
| Permissions.MustDelete | bot/main.py:401-408 | a message is deleted exactly when its channel is restricted and none of the allowed roles is among the author's roles |
| Permissions.RulesChannelGate | bot/config.py:34-36 | in `rules`, an author with no roles or only `devGuy` is deleted and one holding Moderator is not; `general` is not gated |
| Permissions.AdminsPassEveryGate | bot/config.py:33-39 | a member who is an admin through one of its roles passes every restricted-channel gate of the configuration |
| Permissions.AdminExamples | bot/main.py:632-637 | concrete admin and non-admin cases, including the administrator flag alone |
| Purge.PurgeChannel | bot/main.py:834-846 | amounts outside 1..100 are refused; otherwise up to amount+1 newest messages are deleted, the rest of the history stays in order, and the reported count is one less than the deleted count |
| Purge.ReportedCountBounds | bot/main.py:834-846 | for an amount in range, the reported count lies between 0 and the amount, and falls short only when the channel ran out of messages |
| Purge.PurgeExamples | bot/main.py:834-852 | 0 and 101 are refused; purging 1 of three messages deletes two and reports 1; a short history deletes everything |
| MemberCount.ChannelName | bot/main.py:192 | the channel name starts with `members-` and has the count written after it |
| MemberCount.CountOfChannelName | bot/main.py:230 | reading the count back from a generated name yields the count |
| MemberCount.ChannelNameInjective | bot/main.py:230 | different counts produce different names |
| MemberCount.Rename | bot/main.py:230-234 | a rename is issued exactly when the current name differs from `members-<count>`, and it is to exactly that name |
| MemberCount.RenameIdempotent | bot/main.py:230-234 | after one rename, the same count asks for no further rename |
| MemberCount.FindCountChannel | bot/main.py:185-188 | the first channel whose name starts with `members` is chosen; no earlier channel has that prefix |
| MemberCount.Setup | bot/main.py:184-216 | a channel named `members-<count>` is created exactly when no channel has the prefix; otherwise the first prefixed channel is reused, no earlier one has the prefix, and it is renamed exactly as `Rename` says |
| MemberCount.SetupSettles | bot/main.py:184-234 | running the setup again on the channels it produced reuses the same channel (the created one is last) and asks for no rename |
| MemberCount.FirstPrefixIsFound | bot/main.py:185-188 | the search returns the first prefixed channel whenever one exists |
| MemberCount.PrefixSearchAcceptsOtherChannels | bot/main.py:186 | a channel such as `membership-perks` is taken for the count channel and renamed |
| UserSync.NewUsers | bot/main.py:1024-1027 | the selected members are exactly the guild members not yet stored |
| UserSync.NewUsersAppend | bot/main.py:1024-1027 | selection distributes over concatenating member lists, so guild order is kept |
| UserSync.NewUsersIdempotent | bot/main.py:1024-1027 | selecting twice gives the same list |
| UserSync.SyncUsers | bot/main.py:1041-1084 | synced and error counts add up to the number of new users and synced equals the successful stores; progress is reported, in increasing order, at exactly the positions that are a tenth user or the last one and whose store succeeded |
| UserSync.ProgressStep | bot/main.py:1069-1076 | after one more member, the progress list gains that position exactly when its store succeeded and it is a tenth member or the last one, and stays increasing |
| UserSync.SyncCommand | bot/main.py:999-1121 | outside a server the command refuses; without a method to read the stored ids it fails; otherwise it completes with counts adding up to the new users, and synced equals the successful stores only when the store method exists |
| UserSync.SyncAsWrittenAlwaysFails | bot/main.py:1016 | against the methods `bot/database.py` defines, the command fails in every server |
| UserSync.SyncWithMethodsCompletes | bot/main.py:1016-1084 | with the read and store methods supplied, the command completes with the counts of the sync loop |
| UserSync.SyncExample | bot/main.py:1024-1027 | members 1, 2, 3, 2 with 2 already stored select 1 and 3 |
| Ranking.LimitCount | bot/database.py:199 | the number of documents a limited query returns: all of them for 0, otherwise exactly the smaller of the count and the absolute limit |
| Ranking.LimitCountSign | bot/database.py:199 | a negative limit returns as many documents as its absolute value |
| Ranking.LimitCountMonotone | bot/database.py:199 | more documents never give a shorter result under the same limit |
| Ranking.NoLimitKeepsAll | bot/database.py:128 | with limit 0 the result is a permutation of the input |
| Ranking.TopN | bot/database.py:199 | the result satisfies `IsTopN`: a prefix of a descending permutation of the input |
| Ranking.TopNProperties | bot/database.py:199 | the result has the limited length, is a sub-multiset of the input, is sorted descending, and everything left out is no greater than everything returned |
| Ranking.TopNMembers | bot/database.py:128 | every returned document comes from the input |
| Ranking.StrictMaximumComesFirst | bot/database.py:128 | with a positive limit, a document whose key is strictly greater than all others is returned first |
| Documents.FindFirst | bot/database.py:163 | the index found holds the key and no earlier document does; none is found exactly when the key is absent |
| Documents.FindFirstUnique | mongo-init.js:19 | under unique keys, the first match is the only match |
| Documents.Select | bot/database.py:54 | the filter keeps exactly the documents with the key, with their multiplicities |
| Documents.SelectAppend | bot/database.py:54 | filtering distributes over concatenation, so order is kept |
| Documents.UniqueAfterReplace | mongo-init.js:19 | replacing a document by one with the same key keeps keys unique |
| Documents.UniqueAfterAppend | mongo-init.js:19 | appending a document whose key is absent keeps keys unique |
| LevelStore.GetUserLevelData | bot/database.py:160-177 | an existing pair returns the first matching record, with the store untouched; otherwise a record with XP 0, level 0, no messages, no last gain and the current creation and update times is appended and returned |
| LevelStore.UpdateUserXp | bot/database.py:179-194 | the first record of the pair gains the XP and one message and gets the current time as last gain and update time; the level changes only when one is given; a missing pair is appended with no creation time and the update time set; no other record changes |
| LevelStore.GetUserRank | bot/database.py:201-214 | a user with no record has no rank; otherwise the rank is one more than the number of guild records with strictly more XP, between 1 and the guild size |
| LevelStore.TiedUsersShareRank | bot/database.py:208-214 | users with equal XP have equal rank |
| LevelStore.MoreXpBetterRank | bot/database.py:208-214 | a user with strictly more XP ranks strictly better |
| LevelStore.RankOneIffTop | bot/database.py:208-214 | rank 1 holds exactly when no guild record has more XP |
| LevelStore.RankExample | bot/database.py:201-214 | XP 500, 500, 300 gives ranks 1, 1, 3; an absent user gets none |
| LevelStore.GuildSize | bot/database.py:222 | the guild's document count never exceeds the collection's size |
| LevelStore.GuildRecordsSize | bot/database.py:222 | the document count equals the number of documents the guild filter keeps |
| LevelStore.GuildSizeZero | bot/database.py:218-222 | the count is zero exactly when no document belongs to the guild |
| LevelStore.CountAbove | bot/database.py:209-212 | the documents counted above an XP value never exceed the guild's document count |
| LevelStore.CountAboveZero | bot/database.py:209-212 | nothing counts as above exactly when no guild document has more XP |
| LevelStore.CountAboveBelowSize | bot/database.py:209-212 | the number of records above a user is below the guild size when the user has a record |
| LevelStore.CountAboveAntitone | bot/database.py:209-212 | more XP never means more records above |
| LevelStore.GuildRecords | bot/database.py:198 | exactly the documents of the guild, with their multiplicities |
| LevelStore.GetLeaderboard | bot/database.py:196-199 | the guild's records ordered by the requested field, descending, and limited |
| LevelStore.LeaderboardHeadIsTop | bot/database.py:196-199 | the first entry of an XP leaderboard has at least the XP of every guild record |
| LevelStore.LeaderboardHeadHasRankOne | bot/database.py:196-214 | the first entry of an XP leaderboard has rank 1 |
| LevelStore.MaxLevel | bot/database.py:227 | the largest stored level of the guild, none when no record has a level |
| LevelStore.Mean | bot/database.py:226 | `$avg` of the present levels: none exactly when no level is present, otherwise a value that times their number gives their sum |
| LevelStore.GuildTotalAppend | bot/database.py:222-225 | appending a document adds its contribution to a `$sum` over the guild |
| LevelStore.GuildTotalReplace | bot/database.py:222-225 | replacing a document changes a `$sum` by the difference of the two contributions |
| LevelStore.GetLevelStats | bot/database.py:216-231 | nothing when the guild has no records; otherwise the record count, the sums of messages and XP, the maximum of the stored levels (`MaxLevel`), and an average that times the number of stored levels gives their sum |
| LevelStore.StatsAfterUpdateXp | bot/database.py:179-231 | after any XP update the guild has statistics: total XP grows by the gain, total messages by one, and users by one only when the pair was new |
| LevelStore.TotalsAfterUpdateXp | bot/database.py:179-225 | an XP update adds the gain to the guild's total XP and one to its total messages, and adds one document only when the pair was new |
| LevelStore.OtherGuildStatsUnchanged | bot/database.py:179-231 | an XP update in one guild leaves the statistics of every other guild unchanged |
| LevelStore.StatsAfterGetUserLevelData | bot/database.py:160-231 | fetching a new user's data adds one user, no XP and no messages to the guild's statistics |
| UserStore.StoreUserJoin | bot/database.py:73-93 | afterwards the pair is present and its first document is the new join record with empty roles; other documents are untouched; unique keys stay unique |
| UserStore.UpdateUserActivity | bot/database.py:95-101 | a missing pair changes nothing; otherwise only its first document's activity time is set |
| UserStore.UpdateUserRoles | bot/database.py:103-109 | a missing pair changes nothing; otherwise the pair's roles become the given list |
| UserStore.UpdatesDoNotInsert | bot/database.py:95-109 | neither update creates or removes a user |
| UserStore.ActivityKeepsRoles | bot/database.py:95-101 | recording activity leaves every user's roles unchanged |
| UserStore.RejoinResetsRoles | bot/database.py:79-93 | a rejoin overwrites the stored roles with an empty list |
| UserStore.JoinLeavesOneDocument | bot/database.py:88-93 | with unique keys, exactly one document for the pair exists after a join |
| RoleRequests.StoreRoleRequest | bot/database.py:30-41 | one request with the given user, username, role, guild and status, the current time and no update time is appended; earlier requests are kept |
| RoleRequests.UpdateRoleRequestStatus | bot/database.py:43-49 | the first request of that user and role (any guild) gets exactly the new status and the current update time, even when the status is unchanged; no other request changes |
| RoleRequests.GetUserRoles | bot/database.py:51-54 | exactly the user's approved requests, with multiplicities |
| RoleRequests.StoredApprovalIsListed | bot/database.py:30-54 | a stored approved request is listed among the user's roles |
| RoleRequests.ApprovalIsListed | bot/database.py:43-54 | approving an existing request makes a request for that role appear in the user's approved list |
| RoleRequests.StatusUpdateIgnoresGuild | bot/database.py:45-47 | with requests for the same role in two guilds, the update reaches the first one, whatever guild was meant |
| BugReports.StoreBugReport | bot/database.py:112-123 | one open report with the given id, user, username, text and guild, the current time and no update time is appended |
| BugReports.GetBugReports | bot/database.py:125-128 | reports with the asked status, newest first, limited |
| BugReports.UpdateBugStatus | bot/database.py:130-137 | the report with the id gets exactly the new status and the current update time, even when the status is unchanged; no other report changes; an unknown id changes nothing |
| BugReports.UpdatedReportIsListed | bot/database.py:125-137 | after a known report is given a status, listing that status without a limit includes it |
| BugReports.NewestReportListedFirst | bot/database.py:112-128 | a report filed after every open one is listed first among open reports |
| Resources.StoreResource | bot/database.py:140-152 | one resource with the given user, username, title, content, url and guild and the current time is appended |
| Resources.NewResourceShownFirst | bot/database.py:140-157 | a resource stored after every existing one is listed first under any non-zero limit |
| Resources.GetResources | bot/database.py:154-157 | resources newest first, limited |
| Resources.ShownResources | bot/main.py:918 | `!resources` shows at most five resources, and a newer one is never left out in favour of an older one |
| RoleCommand.Decide | bot/main.py:562-581 | each outcome holds exactly under its check in source order: no name, not requestable, already held, missing on the server, otherwise granted with the old roles plus the new one |
| RoleCommand.RequestRole | bot/main.py:562-598 | every refusal is the one the checks give, in source order, and writes nothing; a failed grant writes nothing; a grant appends an approved request by the author and sets the stored roles of an existing user; the number of user documents and every document of another pair are unchanged |
| RoleCommand.ChecksRunInOrder | bot/main.py:562-581 | concrete inputs reaching each refusal and the grant |
| RoleCommand.GrantIsNotRepeated | bot/main.py:571-575 | after a grant, asking again for the same role is refused as already held |
| Events.OnMessage | bot/main.py:385-415 | bot messages are ignored; otherwise activity is recorded, gated messages are deleted, a case-insensitive `!help` shows help, and everything else goes to command processing |
| Events.HelpExamples | bot/main.py:411 | `!help` in any letter case is recognised; trailing spaces and other text are not |
| Events.RulesChannelMessages | bot/main.py:400-408 | in `rules`, a Moderator's message is processed, a member's message is deleted and a bot's message is ignored |
| Events.OnMemberJoin | bot/main.py:321-368 | a join stores the user; when a count channel exists it is renamed to exactly `members-<count>` for the new count, and not renamed when it already has that name |
| Events.OnMemberRemove | bot/main.py:373-380 | a leave renames the count channel to exactly `members-<count>` for the new count, unless it already has that name |
| Events.JoinThenLeave | bot/main.py:321-380 | for a member of the bot's first guild, from a channel named for the count, a join stores the member and renames the channel to `members-<count+1>`, and the following leave renames it back to `members-<count>` |

## Left out

- Discord I/O: sending messages, embeds, direct messages, presence, channel and role creation, and the Discord logging handler. Their effects are replaced by returned values.
- Time and the database connection: the clock is a parameter. `connect`, `get_collection` and `close_connection` are not modelled.
- `log_admin_action` and the `admin_logs` collection: the log is append-only and nothing in the core reads it back.
- An XP curve, XP awards per message and a cooldown: the code has none of them.
- Commands outside the core are not modelled: `kick`, `ban`, `unban`, `unmute`, `myroles`, `ping`, the help text, the bug-report prompt and `on_command_error`.
- `extract_user_data`, `store_user_profile` and `get_users_in_database`: the last two are called by `!syncusers` but are not defined in `bot/database.py`, so the command as written always ends in "Sync Failed" (see Findings). The sync loop takes the stored ids and the outcome of each store as inputs.
- Member-count channel: the bot keeps one count channel, set up in its first guild (`bot/main.py:162-168`), and always counts that guild's members (`bot/main.py:227-228`). The events take that channel's name and that count as parameters. So a join or leave in any other guild recounts the first guild and renames its channel only if that count went stale.
- Natural order: without a sort, MongoDB returns documents in natural order, which need not be insertion order. The model takes it to be insertion order. This matters for `role_requests`, whose `(user_id, guild_id)` index is not unique, and for `update_one` wherever more than one document matches.
- UserSync.SyncUsers: the progress percentage is floating point, so only the points at which progress is reported are modelled. The 0.1 s rate-limit sleeps are left out too.
- Numerals.ParseInt: Python's `int()` also accepts surrounding whitespace, `_` separators and non-ASCII digits. The model rejects these, so such inputs take the 600 s fallback.
- `parse_time` checks the suffixes in the order s, m, h, d. A string has only one last character, so the order cannot matter and the model tests the last character directly.
- LevelStore.GetLevelStats: `avg_level` is an exact rational, not a float.
- LevelStore.GetLeaderboard: `sort_by` is limited to the three numeric fields. Sorting on any other field name is not modelled.
- Integer widths: MongoDB stores 64-bit integers and `$inc` can overflow. The model uses unbounded integers.
- `ObjectId(bug_id)` raising on a malformed id is not modelled. Bug ids are naturals supplied by the caller.
- Concurrency: `get_user_level_data` is a find followed by an insert and is not atomic. The model runs operations one at a time.
- Log embeds: the deleted-message log caps its attachment list at three entries, and the per-message user log caps attachments and reactions at five each. None of these lists is modelled. The 100-character preview in `!resources` is not modelled either.
- Exceptions other than the modelled refusals and failed grants/stores are not modelled. Examples are network errors and missing permissions.

## Findings

| source | as written | input that shows it | evidently intended | confidence | as-written member | corrected member |
|---|---|---|---|---|---|---|
| bot/main.py:1016 | `!syncusers` calls `db.get_users_in_database`, which `bot/database.py` does not define; the `AttributeError` is caught by the outer handler | running `!syncusers` in any server | read the stored ids, store each new member, report synced and error counts | medium, not executed | UserSync.SyncAsWrittenAlwaysFails | UserSync.SyncWithMethodsCompletes |

=== FILE: bug_reports.dfy ===
/** The `bug_reports` collection (bot/database.py). */
module BugReports {
  import opened Types
  import Documents
  import Ranking

  const Open: string := "open"
  const DefaultLimit: int := 10

  /** `id` stands for the document id the store assigns on insertion. */
  datatype BugReport = BugReport(
    id: nat,
    userId: UserId,
    username: string,
    description: string,
    guildId: GuildId,
    status: string,
    timestamp: Timestamp,
    updatedAt: Option<Timestamp>)

  type Reports = seq<BugReport>

  function Status(r: BugReport): string { r.status }
  function Id(r: BugReport): nat { r.id }
  function Newest(r: BugReport): Option<int> { Some(r.timestamp) }

  /** `store_bug_report`: appends an open report stamped with the current time. */
  function StoreBugReport(s: Reports, id: nat, user: UserId, username: string, description: string, guild: GuildId, now: Timestamp): (s': Reports)
    ensures |s'| == |s| + 1 && s'[..|s|] == s
    ensures s'[|s|].id == id && s'[|s|].status == Open && s'[|s|].timestamp == now && s'[|s|].description == description
    ensures s'[|s|].userId == user && s'[|s|].username == username && s'[|s|].guildId == guild && s'[|s|].updatedAt.None?
  {
    var s' := s + [BugReport(id, user, username, description, guild, Open, now, None)];
    assert s'[..|s|] == s;
    s'
  }

  /** `get_bug_reports`: reports with the given status, newest first, at most `limit`. */
  function GetBugReports(s: Reports, status: string, limit: int): (r: Reports)
    ensures Ranking.IsTopN(Documents.Select(s, Status, status), Newest, limit, r)
    ensures forall i :: 0 <= i < |r| ==> r[i].status == status
  {
    var r := Ranking.TopN(Documents.Select(s, Status, status), Newest, limit);
    Ranking.TopNMembers(Documents.Select(s, Status, status), Newest, limit, r);
    r
  }

  /** `update_bug_status`: sets status and update time on the report with this id. */
  function UpdateBugStatus(s: Reports, id: nat, status: string, now: Timestamp): (s': Reports)
    ensures |s'| == |s|
    ensures !Documents.Present(s, Id, id) ==> s' == s
    ensures forall j :: 0 <= j < |s| && s[j].id != id ==> s'[j] == s[j]
    ensures forall j :: 0 <= j < |s| ==> s'[j] == s[j] || s'[j] == s[j].(status := status, updatedAt := Some(now))
    ensures Documents.Present(s, Id, id) ==>
              var i := Documents.FindFirst(s, Id, id).value;
              s'[i] == s[i].(status := status, updatedAt := Some(now))
  {
    match Documents.FindFirst(s, Id, id)
    case Some(i) => s[i := s[i].(status := status, updatedAt := Some(now))]
    case None => s
  }

  /** A report filed later than every other open report heads the default listing. */
  lemma NewestReportListedFirst(s: Reports, id: nat, user: UserId, username: string, description: string, guild: GuildId, now: Timestamp)
    requires forall j :: 0 <= j < |s| && s[j].status == Open ==> s[j].timestamp < now
    ensures var s' := StoreBugReport(s, id, user, username, description, guild, now);
            var listed := GetBugReports(s', Open, DefaultLimit);
            |listed| > 0 && listed[0] == s'[|s|]
  {
    var s' := StoreBugReport(s, id, user, username, description, guild, now);
    var x := s'[|s|];
    var open := Documents.Select(s', Status, Open);
    assert s' == s + [x];
    Documents.SelectAppend(s, [x], Status, Open);
    assert [x][..0] == [];
    assert open == Documents.Select(s, Status, Open) + [x];
    assert x in open;
    forall y | y in open && y != x
      ensures !Ranking.KeyLeq(Newest(x), Newest(y))
    {
      assert y in Documents.Select(s, Status, Open);
      assert y in multiset(s);
    }
    Ranking.StrictMaximumComesFirst(open, Newest, DefaultLimit, GetBugReports(s', Open, DefaultLimit), x);
  }

  /** After a status change the report is listed under its new status when
      the listing is not limited. */
  lemma UpdatedReportIsListed(s: Reports, id: nat, status: string, now: Timestamp)
    requires Documents.Present(s, Id, id)
    ensures var listed := GetBugReports(UpdateBugStatus(s, id, status, now), status, 0);
            exists k :: 0 <= k < |listed| && listed[k].id == id
  {
    var s' := UpdateBugStatus(s, id, status, now);
    var i := Documents.FindFirst(s, Id, id).value;
    var x := s'[i];
    assert x.id == id && x.status == status;
    var selected := Documents.Select(s', Status, status);
    assert x in multiset(s');
    assert multiset(selected)[x] == multiset(s')[x];
    var listed := GetBugReports(s', status, 0);
    Ranking.NoLimitKeepsAll(selected, Newest, listed);
    assert x in multiset(listed);
    var k :| 0 <= k < |listed| && listed[k] == x;
  }
}

=== FILE: config.dfy ===
/** The fixed configuration the bot reads from bot/config.py.  Values that
    come from the environment are given their documented defaults. */
module Config {

  /** Roles a member may grant themself with `!role`. */
  const AvailableRoles: seq<string> := ["devGuy", "sysAdmin", "h@xor", "btw-i-use-arch"]

  /** Role names that make a member an administrator of the bot. */
  const AdminRoles: seq<string> := ["Admin", "Moderator"]

  /** Channels where only the listed roles may post. */
  const RestrictedChannels: map<string, seq<string>> := map["rules" := ["Admin", "Moderator"]]

  /** Default name prefix of the member-count channel. */
  const MemberCountChannel: string := "members"
}

=== FILE: documents.dfy ===
/** Queries the document store answers the same way for every collection:
    `find_one` on an equality filter (the first match in natural order),
    `find` on an equality filter (all matches, in natural order), and the
    uniqueness a unique index enforces.  A collection is the sequence of its
    documents in natural (insertion) order; `key` projects the filtered fields. */
module Documents {
  import opened Types

  /** Some document has key `k`. */
  predicate Present<T, K(==)>(s: seq<T>, key: T -> K, k: K) {
    exists i :: 0 <= i < |s| && key(s[i]) == k
  }

  /** No two documents share a key (what a unique index guarantees). */
  ghost predicate UniqueKeys<T, K>(s: seq<T>, key: T -> K) {
    forall i, j :: 0 <= i < j < |s| ==> key(s[i]) != key(s[j])
  }

  /** `find_one`: the position of the first document with key `k`. */
  function FindFirst<T, K(==)>(s: seq<T>, key: T -> K, k: K): (found: Option<nat>)
    ensures found.None? <==> !Present(s, key, k)
    ensures found.Some? ==> found.value < |s| && key(s[found.value]) == k
    ensures found.Some? ==> forall j :: 0 <= j < found.value ==> key(s[j]) != k
  {
    if |s| == 0 then None
    else if key(s[0]) == k then Some(0)
    else
      assert forall j :: 1 <= j < |s| ==> s[j] == s[1..][j - 1];
      match FindFirst(s[1..], key, k)
      case None => None
      case Some(i) => Some(i + 1)
  }

  /** In a collection without duplicate keys, the first match is the only one. */
  lemma FindFirstUnique<T, K>(s: seq<T>, key: T -> K, i: nat)
    requires UniqueKeys(s, key) && i < |s|
    ensures FindFirst(s, key, key(s[i])) == Some(i)
  {
  }

  /** `find` with an equality filter: the matching documents, in natural order. */
  function Select<T(==,!new), K(==)>(s: seq<T>, key: T -> K, k: K): (r: seq<T>)
    ensures |r| <= |s|
    ensures forall i :: 0 <= i < |r| ==> key(r[i]) == k
    ensures forall x :: multiset(r)[x] == (if key(x) == k then multiset(s)[x] else 0)
  {
    if |s| == 0 then []
    else
      var init := s[..|s| - 1];
      var last := s[|s| - 1];
      assert s == init + [last];
      var rest := Select(init, key, k);
      if key(last) == k then rest + [last] else rest
  }

  /** Selection keeps natural order: selecting from a concatenation selects from each part. */
  lemma {:induction false} SelectAppend<T(!new), K>(a: seq<T>, b: seq<T>, key: T -> K, k: K)
    ensures Select(a + b, key, k) == Select(a, key, k) + Select(b, key, k)
    decreases |b|
  {
    if |b| == 0 {
      assert a + b == a;
    } else {
      var b' := b[..|b| - 1];
      assert (a + b)[..|a + b| - 1] == a + b';
      SelectAppend(a, b', key, k);
    }
  }

  /** Overwriting a document without changing its key keeps keys unique. */
  lemma UniqueAfterReplace<T, K>(s: seq<T>, key: T -> K, i: nat, x: T)
    requires UniqueKeys(s, key) && i < |s| && key(x) == key(s[i])
    ensures UniqueKeys(s[i := x], key)
  {
  }

  /** Inserting a document whose key is absent keeps keys unique. */
  lemma UniqueAfterAppend<T, K>(s: seq<T>, key: T -> K, x: T)
    requires UniqueKeys(s, key) && !Present(s, key, key(x))
    ensures UniqueKeys(s + [x], key)
  {
  }
}

=== FILE: durations.dfy ===
/** The `!mute` duration argument: `parse_time` and the auto-unmute decision
    that depends on it (bot/main.py). */
module Durations {
  import opened Types
  import opened Numerals

  /** What `parse_time` returns when the number cannot be read: ten minutes. */
  const FallbackSeconds: int := 600

  /** The default `time` argument of `!mute`. */
  const DefaultMuteArgument: string := "10m"

  predicate IsUnit(c: char) {
    c == 's' || c == 'm' || c == 'h' || c == 'd'
  }

  /** Seconds per unit suffix. */
  function UnitSeconds(c: char): (k: nat)
    requires IsUnit(c)
    ensures k > 0
  {
    match c
    case 's' => 1
    case 'm' => 60
    case 'h' => 3600
    case 'd' => 86400
  }

  /** Sixty times `x`: a whole number of minutes, with the sign of `x`. */
  function Sixty(x: int): (r: int)
    ensures r % 60 == 0
    ensures r < 0 <==> x < 0
  {
    60 * x
  }

  /** `count` units of `u`, written with literal factors. */
  function InSeconds(count: int, u: char): (seconds: int)
    requires IsUnit(u)
    ensures u != 's' ==> seconds % 60 == 0
    ensures seconds < 0 <==> count < 0
    ensures seconds == count * UnitSeconds(u)
  {
    if u == 's' then count
    else if u == 'm' then Sixty(count)
    else if u == 'h' then Sixty(60 * count)
    else Sixty(1440 * count)
  }

  /** Seconds for a parsed count, or the fallback when the count did not parse. */
  function Scaled(count: Option<int>, u: char): (seconds: int)
    requires IsUnit(u)
    ensures u != 's' ==> seconds % 60 == 0
    ensures seconds < 0 ==> count.Some? && count.value < 0
  {
    match count
    case Some(n) => InSeconds(n, u)
    case None => FallbackSeconds
  }

  /** `parse_time`: a total reading of a duration string into seconds.  A
      trailing `s`, `m`, `h` or `d` scales the integer before it; a bare
      integer counts minutes; anything unreadable is ten minutes. */
  function ParseTime(t: string): (seconds: int)
    ensures seconds % 60 != 0 ==> 0 < |t| && t[|t| - 1] == 's'
    ensures seconds < 0 ==> 0 < |t| && t[0] == '-'
    ensures seconds != FallbackSeconds && 0 < |t| && IsUnit(t[|t| - 1]) ==> IsIntLiteral(t[..|t| - 1])
    ensures 0 < |t| && IsUnit(t[|t| - 1]) && !IsIntLiteral(t[..|t| - 1]) ==> seconds == FallbackSeconds
    ensures 0 < |t| && IsUnit(t[|t| - 1]) && IsIntLiteral(t[..|t| - 1]) ==>
              seconds == ParseInt(t[..|t| - 1]).value * UnitSeconds(t[|t| - 1])
    ensures (|t| == 0 || !IsUnit(t[|t| - 1])) && !IsIntLiteral(t) ==> seconds == FallbackSeconds
    ensures (|t| == 0 || !IsUnit(t[|t| - 1])) && IsIntLiteral(t) ==> seconds == ParseInt(t).value * 60
  {
    if 0 < |t| && IsUnit(t[|t| - 1]) then Scaled(ParseInt(t[..|t| - 1]), t[|t| - 1])
    else Scaled(ParseInt(t), 'm')
  }

  /** A number followed by a unit suffix is that many units. */
  lemma ParseTimeWithUnit(n: int, u: char)
    requires IsUnit(u)
    ensures ParseTime(IntToString(n) + [u]) == n * UnitSeconds(u)
  {
    var t := IntToString(n) + [u];
    assert t[..|t| - 1] == IntToString(n);
    ParseIntOfIntToString(n);
    assert InSeconds(n, u) == n * UnitSeconds(u);
  }

  /** A bare number counts minutes. */
  lemma ParseTimeBareMinutes(n: int)
    ensures ParseTime(IntToString(n)) == n * 60
  {
    var t := IntToString(n);
    ParseIntOfIntToString(n);
    if n < 0 {
      assert t[|t| - 1] == NatToString(-n)[|NatToString(-n)| - 1];
    }
    assert IsDigit(t[|t| - 1]);
  }

  /** Strings whose number part is unreadable fall back to ten minutes. */
  lemma ParseTimeFallbackExamples()
    ensures ParseTime("") == FallbackSeconds
    ensures ParseTime("m") == FallbackSeconds
    ensures ParseTime("5ms") == FallbackSeconds
    ensures ParseTime("abc") == FallbackSeconds
  {
    assert !IsDigit('m');
    assert !IsIntLiteral("5m") by { assert "5m"[1] == 'm'; }
    assert !IsIntLiteral("abc") by { assert !IsDigit('a'); }
    assert IsDigit('c') == false;
  }

  /** Readable durations, including the default argument, which reads as
      exactly the ten minutes of the fallback. */
  lemma ParseTimeExamples()
    ensures ParseTime(DefaultMuteArgument) == 600
    ensures ParseTime("90s") == 90
    ensures ParseTime("2h") == 7200
    ensures ParseTime("1d") == 86400
    ensures ParseTime("-5m") == -300
    ensures ParseTime("+5s") == 5
    ensures ParseTime("0m") == 0
  {
    assert "10m"[..2] == "10";
    assert DigitsValue("10") == 10 by { assert "10"[..1] == "1"; }
    assert ParseInt("10") == Some(10);
    assert "90s"[..2] == "90";
    assert DigitsValue("90") == 90 by { assert "90"[..1] == "9"; }
    assert ParseInt("90") == Some(90);
    assert "2h"[..1] == "2" && ParseInt("2") == Some(2);
    assert "1d"[..1] == "1" && ParseInt("1") == Some(1);
    assert "-5m"[..2] == "-5";
    assert ParseInt("-5") == Some(-5) by { assert "-5"[1..] == "5"; }
    assert "+5s"[..2] == "+5";
    assert ParseInt("+5") == Some(5) by { assert "+5"[1..] == "5"; }
    assert "0m"[..1] == "0" && ParseInt("0") == Some(0);
  }

  /** `if duration:` in `!mute`: a zero duration schedules no automatic
      unmute; a negative one unmutes at once, since a non-positive sleep
      returns immediately.  The result is the delay before unmuting. */
  function AutoUnmuteDelay(t: string): (delay: Option<nat>)
    ensures delay.None? <==> ParseTime(t) == 0
    ensures delay.Some? && ParseTime(t) > 0 ==> delay.value == ParseTime(t)
    ensures delay.Some? && ParseTime(t) < 0 ==> delay.value == 0
  {
    var d := ParseTime(t);
    if d == 0 then None else if d < 0 then Some(0) else Some(d)
  }

  lemma AutoUnmuteExamples()
    ensures AutoUnmuteDelay(DefaultMuteArgument) == Some(600)
    ensures AutoUnmuteDelay("0s") == None
    ensures AutoUnmuteDelay("-1h") == Some(0)
    ensures AutoUnmuteDelay("soon") == Some(FallbackSeconds)
  {
    ParseTimeExamples();
    assert "0s"[..1] == "0";
    assert "-1h"[..2] == "-1" && "-1"[1..] == "1";
    assert !IsIntLiteral("soon") by { assert !IsDigit('s'); }
    assert !IsIntLiteral("soo") by { assert !IsDigit('s'); }
  }

  /** For every written duration, the mute lasts exactly the written amount:
      no automatic unmute for zero, an immediate one for a negative amount. */
  lemma AutoUnmuteWithUnit(n: int, u: char)
    requires IsUnit(u)
    ensures AutoUnmuteDelay(IntToString(n) + [u]) ==
              if n == 0 then None else if n < 0 then Some(0) else Some(n * UnitSeconds(u))
  {
    ParseTimeWithUnit(n, u);
    assert UnitSeconds(u) > 0;
    assert n * UnitSeconds(u) == 0 <==> n == 0;
    assert n * UnitSeconds(u) < 0 <==> n < 0;
  }

  /** `int()` also takes an explicit plus sign and leading zeros. */
  lemma ParseTimeNonCanonicalExamples()
    ensures ParseTime("+5m") == 300
    ensures ParseTime("007m") == 420
  {
    assert "+5m"[..2] == "+5" && "+5"[1..] == "5";
    assert "007m"[..3] == "007";
    assert DigitsValue("007") == 7 by {
      assert "007"[..2] == "00" && "00"[..1] == "0";
    }
  }
}

=== FILE: events.dfy ===
/** The guild events the bot reacts to (bot/main.py): a new message, a
    member joining and a member leaving, reduced to their effect on the
    `users` collection and the decision they take. */
module Events {
  import opened Types
  import Documents
  import UserStore
  import Permissions
  import MemberCount

  datatype Message = Message(
    authorId: UserId,
    authorIsBot: bool,
    authorRoles: seq<string>,
    guildId: GuildId,
    channel: string,
    content: string)

  /** What `on_message` does after logging and recording activity. */
  datatype Action = Ignored | DeletedRestricted | ShowHelp | ProcessCommands

  function AsciiLower(c: char): char {
    if 'A' <= c <= 'Z' then (c as int + 32) as char else c
  }

  const HelpCommand: string := "!help"

  /** `message.content.lower() == '!help'`.  Lower-casing is taken on ASCII
      letters; no other character lower-cases to one of "!help". */
  predicate IsHelpRequest(content: string) {
    |content| == |HelpCommand| && forall i :: 0 <= i < |content| ==> AsciiLower(content[i]) == HelpCommand[i]
  }

  datatype Handled = Handled(users: UserStore.Users, action: Action)

  /** `on_message`: messages from bots are ignored outright.  Otherwise the
      author's last activity is recorded, then a message in a restricted
      channel from an author without an allowed role is deleted, `!help` in
      any letter case shows help, and anything else goes to the command parser. */
  function OnMessage(users: UserStore.Users, m: Message, now: Timestamp): (h: Handled)
    ensures m.authorIsBot ==> h == Handled(users, Ignored)
    ensures !m.authorIsBot ==> h.action != Ignored
    ensures h.action == DeletedRestricted <==> !m.authorIsBot && Permissions.MustDelete(m.channel, m.authorRoles)
    ensures h.action == ShowHelp <==>
              !m.authorIsBot && !Permissions.MustDelete(m.channel, m.authorRoles) && IsHelpRequest(m.content)
    ensures |h.users| == |users|
    ensures forall j :: 0 <= j < |users| && UserStore.Pair(users[j]) != (m.authorId, m.guildId) ==> h.users[j] == users[j]
    ensures forall j :: 0 <= j < |users| ==> h.users[j] == users[j] || h.users[j] == users[j].(lastActivity := now)
    ensures !m.authorIsBot && UserStore.Present(users, m.authorId, m.guildId) ==>
              h.users[Documents.FindFirst(users, UserStore.Pair, (m.authorId, m.guildId)).value].lastActivity == now
  {
    if m.authorIsBot then Handled(users, Ignored)
    else
      var users' := UserStore.UpdateUserActivity(users, m.authorId, m.guildId, now);
      if Permissions.MustDelete(m.channel, m.authorRoles) then Handled(users', DeletedRestricted)
      else if IsHelpRequest(m.content) then Handled(users', ShowHelp)
      else Handled(users', ProcessCommands)
  }

  /** The help check ignores letter case but nothing else. */
  lemma HelpExamples()
    ensures IsHelpRequest("!help") && IsHelpRequest("!HELP") && IsHelpRequest("!HeLp")
    ensures !IsHelpRequest("!help ") && !IsHelpRequest("help") && !IsHelpRequest("!hełp")
  {
    assert AsciiLower("!hełp"[3]) != HelpCommand[3];
  }

  /** Moderators may post in the rules channel; a plain member's post there is deleted. */
  lemma RulesChannelMessages(users: UserStore.Users, now: Timestamp)
    ensures OnMessage(users, Message(1, false, ["Moderator"], 9, "rules", "hi"), now).action == ProcessCommands
    ensures OnMessage(users, Message(2, false, ["devGuy"], 9, "rules", "hi"), now).action == DeletedRestricted
    ensures OnMessage(users, Message(3, true, [], 9, "rules", "hi"), now).action == Ignored
  {
    Permissions.RulesChannelGate();
    assert !Permissions.MustDelete("rules", ["Moderator"]) by {
      assert Permissions.AnyIn(["Admin", "Moderator"], ["Moderator"]) by {
        assert ["Admin", "Moderator"][1] in ["Moderator"];
      }
    }
    assert !IsHelpRequest("hi");
  }

  datatype Joined = Joined(users: UserStore.Users, rename: Option<string>)

  /** `on_member_join`: the member's document is upserted (join date
      defaulting to now) and the member-count channel, when there is one, is
      renamed if its count is stale.  The bot keeps a single count channel,
      set up in its first guild, and `memberCount` is that guild's member
      count, whichever guild the member joined. */
  function OnMemberJoin(users: UserStore.Users, member: UserId, username: string, guild: GuildId,
                        joinedAt: Option<Timestamp>, now: Timestamp,
                        countChannel: Option<string>, memberCount: nat): (j: Joined)
    ensures j.users == UserStore.StoreUserJoin(users, member, username, guild, joinedAt, now)
    ensures countChannel.None? ==> j.rename.None?
    ensures countChannel.Some? ==> MemberCount.CountOf(j.rename.GetOr(countChannel.value)) == Some(memberCount)
    ensures countChannel.Some? ==> (j.rename.None? <==> countChannel.value == MemberCount.ChannelName(memberCount))
    ensures j.rename.Some? ==> j.rename.value == MemberCount.ChannelName(memberCount)
  {
    MemberCount.CountOfChannelName(memberCount);
    var rename := match countChannel
      case None => None
      case Some(name) => MemberCount.Rename(name, memberCount);
    Joined(UserStore.StoreUserJoin(users, member, username, guild, joinedAt, now), rename)
  }

  /** `on_member_remove`: only the member-count channel changes; the
      member's document stays in the collection.  As for a join, the channel
      and `memberCount` belong to the bot's first guild. */
  function OnMemberRemove(countChannel: Option<string>, memberCount: nat): (rename: Option<string>)
    ensures countChannel.None? ==> rename.None?
    ensures countChannel.Some? ==> MemberCount.CountOf(rename.GetOr(countChannel.value)) == Some(memberCount)
    ensures countChannel.Some? ==> (rename.None? <==> countChannel.value == MemberCount.ChannelName(memberCount))
    ensures rename.Some? ==> rename.value == MemberCount.ChannelName(memberCount)
  {
    MemberCount.CountOfChannelName(memberCount);
    match countChannel
    case None => None
    case Some(name) => MemberCount.Rename(name, memberCount)
  }

  /** A join followed by a leave: the stored document of the member stays,
      and the count channel goes up by one and back to its old name. */
  lemma JoinThenLeave(users: UserStore.Users, member: UserId, username: string, guild: GuildId,
                      joinedAt: Option<Timestamp>, now: Timestamp, count: nat)
    ensures var j := OnMemberJoin(users, member, username, guild, joinedAt, now,
                                  Some(MemberCount.ChannelName(count)), count + 1);
            && UserStore.Present(j.users, member, guild)
            && j.rename == Some(MemberCount.ChannelName(count + 1))
            && OnMemberRemove(j.rename, count) == Some(MemberCount.ChannelName(count))
  {
    var j := OnMemberJoin(users, member, username, guild, joinedAt, now,
                          Some(MemberCount.ChannelName(count)), count + 1);
    if MemberCount.ChannelName(count) == MemberCount.ChannelName(count + 1) {
      MemberCount.ChannelNameInjective(count, count + 1);
    }
  }
}

=== FILE: level_store.dfy ===
/** The `user_levels` collection and the leveling queries of the `Database`
    class (bot/database.py).  The level itself is whatever the caller passes
    in; nothing here derives it from XP. */
module LevelStore {
  import opened Types
  import Documents
  import Ranking

  /** One user's leveling state in one guild.  `level` and `createdAt` are
      optional because a document created by the upsert in `update_user_xp`
      has only the fields that update writes. */
  datatype LevelRecord = LevelRecord(
    userId: UserId,
    guildId: GuildId,
    xp: int,
    level: Option<int>,
    messageCount: int,
    lastXpGain: Option<Timestamp>,
    createdAt: Option<Timestamp>,
    updatedAt: Timestamp)

  type Levels = seq<LevelRecord>

  /** The (user_id, guild_id) filter every per-user operation uses. */
  function Pair(r: LevelRecord): (UserId, GuildId) {
    (r.userId, r.guildId)
  }

  function GuildOf(r: LevelRecord): GuildId {
    r.guildId
  }

  predicate Present(s: Levels, user: UserId, guild: GuildId) {
    Documents.Present(s, Pair, (user, guild))
  }

  // ---------------------------------------------------------------------
  // get_user_level_data

  /** The document `get_user_level_data` inserts for a pair it has not seen. */
  function Fresh(user: UserId, guild: GuildId, now: Timestamp): LevelRecord {
    LevelRecord(user, guild, 0, Some(0), 0, None, Some(now), now)
  }

  datatype Fetched = Fetched(record: LevelRecord, levels: Levels)

  /** Find-or-insert: a stored pair is returned as stored and the collection
      is left alone; an unseen pair gets a zeroed document appended and returned. */
  function GetUserLevelData(s: Levels, user: UserId, guild: GuildId, now: Timestamp): (f: Fetched)
    ensures f.record.userId == user && f.record.guildId == guild
    ensures Present(s, user, guild) ==> f.levels == s && f.record in s
    ensures Present(s, user, guild) ==> f.record == s[Documents.FindFirst(s, Pair, (user, guild)).value]
    ensures !Present(s, user, guild) ==> f.levels == s + [f.record]
    ensures !Present(s, user, guild) ==> f.record.updatedAt == now
    ensures !Present(s, user, guild) ==>
              && f.record.xp == 0 && f.record.level == Some(0) && f.record.messageCount == 0
              && f.record.lastXpGain.None? && f.record.createdAt == Some(now)
    ensures Present(f.levels, user, guild)
    ensures Documents.UniqueKeys(s, Pair) ==> Documents.UniqueKeys(f.levels, Pair)
  {
    match Documents.FindFirst(s, Pair, (user, guild))
    case Some(i) => Fetched(s[i], s)
    case None =>
      var r := Fresh(user, guild, now);
      assert (s + [r])[|s|] == r;
      assert Documents.UniqueKeys(s, Pair) ==> Documents.UniqueKeys(s + [r], Pair);
      Fetched(r, s + [r])
  }

  // ---------------------------------------------------------------------
  // update_user_xp

  /** `$inc` of xp and message_count, `$set` of the timestamps, and of the
      level only when one is given. */
  function Bumped(r: LevelRecord, gained: int, newLevel: Option<int>, now: Timestamp): LevelRecord {
    r.(xp := r.xp + gained,
       messageCount := r.messageCount + 1,
       lastXpGain := Some(now),
       updatedAt := now,
       level := if newLevel.Some? then newLevel else r.level)
  }

  /** Upserting into an empty slot: the filter fields, the increments applied
      to zero and the `$set` fields; no `created_at`, and a level only if given. */
  function Upserted(user: UserId, guild: GuildId, gained: int, newLevel: Option<int>, now: Timestamp): LevelRecord {
    LevelRecord(user, guild, gained, newLevel, 1, Some(now), None, now)
  }

  /** `update_user_xp`: adds `gained` to xp and one to the message count of
      the pair's document, records the time, overwrites the level only when a
      new level is given, creates the document if the pair is unseen, and
      changes no other document. */
  function UpdateUserXp(s: Levels, user: UserId, guild: GuildId, gained: int, newLevel: Option<int>, now: Timestamp): (s': Levels)
    ensures Present(s', user, guild)
    ensures Present(s, user, guild) ==> |s'| == |s|
    ensures !Present(s, user, guild) ==> |s'| == |s| + 1 && s'[..|s|] == s
    ensures forall j :: 0 <= j < |s| && Pair(s[j]) != (user, guild) ==> s'[j] == s[j]
    ensures forall j :: 0 <= j < |s| && Pair(s[j]) == (user, guild) ==> s'[j] == s[j] || j == Documents.FindFirst(s, Pair, (user, guild)).value
    ensures Present(s, user, guild) ==>
              var i := Documents.FindFirst(s, Pair, (user, guild)).value;
              && s'[i].userId == user && s'[i].guildId == guild
              && s'[i].xp == s[i].xp + gained
              && s'[i].messageCount == s[i].messageCount + 1
              && s'[i].lastXpGain == Some(now) && s'[i].updatedAt == now
              && s'[i].createdAt == s[i].createdAt
              && (newLevel.None? ==> s'[i].level == s[i].level)
              && (newLevel.Some? ==> s'[i].level == newLevel)
    ensures !Present(s, user, guild) ==>
              && s'[|s|].userId == user && s'[|s|].guildId == guild
              && s'[|s|].xp == gained && s'[|s|].messageCount == 1
              && s'[|s|].level == newLevel && s'[|s|].lastXpGain == Some(now)
              && s'[|s|].createdAt.None? && s'[|s|].updatedAt == now
    ensures Documents.UniqueKeys(s, Pair) ==> Documents.UniqueKeys(s', Pair)
  {
    match Documents.FindFirst(s, Pair, (user, guild))
    case Some(i) =>
      var r := Bumped(s[i], gained, newLevel, now);
      assert s[i := r][i] == r;
      s[i := r]
    case None =>
      var r := Upserted(user, guild, gained, newLevel, now);
      assert (s + [r])[|s|] == r;
      assert (s + [r])[..|s|] == s;
      s + [r]
  }

  // ---------------------------------------------------------------------
  // get_user_rank

  /** Documents of `guild`. */
  function GuildSize(s: Levels, guild: GuildId): (n: nat)
    ensures n <= |s|
  {
    if |s| == 0 then 0
    else GuildSize(s[..|s| - 1], guild) + (if s[|s| - 1].guildId == guild then 1 else 0)
  }

  /** Documents of `guild` with strictly more than `xp` (`count_documents` with `$gt`). */
  function CountAbove(s: Levels, guild: GuildId, xp: int): (n: nat)
    ensures n <= GuildSize(s, guild)
  {
    if |s| == 0 then 0
    else CountAbove(s[..|s| - 1], guild, xp) + (if s[|s| - 1].guildId == guild && s[|s| - 1].xp > xp then 1 else 0)
  }

  /** A document of the guild that is not above `xp` leaves room below the guild size. */
  lemma {:induction false} CountAboveBelowSize(s: Levels, guild: GuildId, xp: int, k: nat)
    requires k < |s| && s[k].guildId == guild && s[k].xp <= xp
    ensures CountAbove(s, guild, xp) < GuildSize(s, guild)
  {
    if k < |s| - 1 {
      CountAboveBelowSize(s[..|s| - 1], guild, xp, k);
    }
  }

  /** No document counts as above exactly when no document of the guild has more XP. */
  lemma {:induction false} CountAboveZero(s: Levels, guild: GuildId, xp: int)
    ensures CountAbove(s, guild, xp) == 0 <==> forall j :: 0 <= j < |s| && s[j].guildId == guild ==> s[j].xp <= xp
  {
    if |s| > 0 {
      var init := s[..|s| - 1];
      CountAboveZero(init, guild, xp);
      assert forall j :: 0 <= j < |s| - 1 ==> s[j] == init[j];
    }
  }

  /** Raising the threshold can only lower the count; strictly so when a
      document of the guild lies above the lower threshold but not the higher one. */
  lemma {:induction false} CountAboveAntitone(s: Levels, guild: GuildId, lo: int, hi: int)
    requires lo <= hi
    ensures CountAbove(s, guild, hi) <= CountAbove(s, guild, lo)
    ensures (exists j :: 0 <= j < |s| && s[j].guildId == guild && lo < s[j].xp <= hi) ==>
              CountAbove(s, guild, hi) < CountAbove(s, guild, lo)
  {
    if |s| > 0 {
      var init := s[..|s| - 1];
      CountAboveAntitone(init, guild, lo, hi);
      assert forall j :: 0 <= j < |s| - 1 ==> s[j] == init[j];
    }
  }

  /** `get_user_rank`: nothing for an unseen pair; otherwise one more than the
      number of documents in the guild with strictly more XP. */
  function GetUserRank(s: Levels, user: UserId, guild: GuildId): (rank: Option<nat>)
    ensures rank.None? <==> !Present(s, user, guild)
    ensures rank.Some? ==> 1 <= rank.value <= GuildSize(s, guild)
    ensures rank.Some? ==>
              var i := Documents.FindFirst(s, Pair, (user, guild)).value;
              rank.value - 1 == CountAbove(s, guild, s[i].xp)
  {
    match Documents.FindFirst(s, Pair, (user, guild))
    case None => None
    case Some(i) =>
      CountAboveBelowSize(s, guild, s[i].xp, i);
      Some(1 + CountAbove(s, guild, s[i].xp))
  }

  /** The XP stored for a present pair (the first match's). */
  function XpOf(s: Levels, user: UserId, guild: GuildId): int
    requires Present(s, user, guild)
  {
    s[Documents.FindFirst(s, Pair, (user, guild)).value].xp
  }

  /** Users with the same XP share a rank. */
  lemma TiedUsersShareRank(s: Levels, a: UserId, b: UserId, guild: GuildId)
    requires Present(s, a, guild) && Present(s, b, guild)
    requires XpOf(s, a, guild) == XpOf(s, b, guild)
    ensures GetUserRank(s, a, guild) == GetUserRank(s, b, guild)
  {
  }

  /** More XP means a strictly better (smaller) rank. */
  lemma MoreXpBetterRank(s: Levels, a: UserId, b: UserId, guild: GuildId)
    requires Present(s, a, guild) && Present(s, b, guild)
    requires XpOf(s, a, guild) > XpOf(s, b, guild)
    ensures GetUserRank(s, a, guild).value < GetUserRank(s, b, guild).value
  {
    var i := Documents.FindFirst(s, Pair, (a, guild)).value;
    CountAboveAntitone(s, guild, XpOf(s, b, guild), XpOf(s, a, guild));
    assert s[i].guildId == guild;
  }

  /** Rank one is held exactly by the users whom nobody in the guild out-scores. */
  lemma RankOneIffTop(s: Levels, user: UserId, guild: GuildId)
    requires Present(s, user, guild)
    ensures GetUserRank(s, user, guild) == Some(1) <==>
              forall j :: 0 <= j < |s| && s[j].guildId == guild ==> s[j].xp <= XpOf(s, user, guild)
  {
    CountAboveZero(s, guild, XpOf(s, user, guild));
  }

  /** Three users with 500, 500 and 300 XP rank 1, 1 and 3. */
  lemma RankExample(now: Timestamp)
    ensures var s := [LevelRecord(1, 9, 500, Some(2), 10, None, None, now),
                      LevelRecord(2, 9, 500, Some(2), 12, None, None, now),
                      LevelRecord(3, 9, 300, Some(1), 4, None, None, now)];
            && GetUserRank(s, 1, 9) == Some(1)
            && GetUserRank(s, 2, 9) == Some(1)
            && GetUserRank(s, 3, 9) == Some(3)
            && GetUserRank(s, 4, 9) == None
  {
    var s := [LevelRecord(1, 9, 500, Some(2), 10, None, None, now),
              LevelRecord(2, 9, 500, Some(2), 12, None, None, now),
              LevelRecord(3, 9, 300, Some(1), 4, None, None, now)];
    assert s[..|s| - 1] == [s[0], s[1]];
    assert [s[0], s[1]][..1] == [s[0]];
    assert [s[0]][..0] == [];
    CountAboveZero(s, 9, 500);
    assert CountAbove([s[0]], 9, 300) == 1;
    assert CountAbove([s[0], s[1]], 9, 300) == 2;
    assert CountAbove(s, 9, 300) == 2;
    assert Documents.UniqueKeys(s, Pair);
    Documents.FindFirstUnique(s, Pair, 0);
    Documents.FindFirstUnique(s, Pair, 1);
    Documents.FindFirstUnique(s, Pair, 2);
    assert Pair(s[0]) == (1, 9) && Pair(s[1]) == (2, 9) && Pair(s[2]) == (3, 9);
    assert !Present(s, 4, 9);
  }

  // ---------------------------------------------------------------------
  // get_leaderboard

  /** The numeric fields a leaderboard may be sorted by. */
  datatype SortField = Xp | Level | MessageCount

  function XpKey(r: LevelRecord): Option<int> { Some(r.xp) }
  function LevelKey(r: LevelRecord): Option<int> { r.level }
  function MessageCountKey(r: LevelRecord): Option<int> { Some(r.messageCount) }

  function KeyOf(field: SortField): LevelRecord -> Option<int> {
    match field
    case Xp => XpKey
    case Level => LevelKey
    case MessageCount => MessageCountKey
  }

  const DefaultLeaderboardLimit: int := 10

  /** The documents of one guild, in natural order. */
  function GuildRecords(s: Levels, guild: GuildId): (g: Levels)
    ensures forall i :: 0 <= i < |g| ==> g[i].guildId == guild
    ensures forall i :: 0 <= i < |s| && s[i].guildId == guild ==> s[i] in g
    ensures |g| == GuildSize(s, guild)
    ensures forall x :: multiset(g)[x] == (if x.guildId == guild then multiset(s)[x] else 0)
  {
    GuildRecordsSize(s, guild);
    var g := Documents.Select(s, GuildOf, guild);
    assert forall i :: 0 <= i < |s| && s[i].guildId == guild ==> s[i] in multiset(s);
    g
  }

  lemma {:induction false} GuildRecordsSize(s: Levels, guild: GuildId)
    ensures |Documents.Select(s, GuildOf, guild)| == GuildSize(s, guild)
  {
    if |s| > 0 {
      GuildRecordsSize(s[..|s| - 1], guild);
    }
  }

  /** `get_leaderboard`: at most `limit` documents of the guild, ordered by
      the chosen field, largest first; ties may come in any order. */
  function GetLeaderboard(s: Levels, guild: GuildId, limit: int, field: SortField): (board: Levels)
    ensures Ranking.IsTopN(GuildRecords(s, guild), KeyOf(field), limit, board)
    ensures forall i :: 0 <= i < |board| ==> board[i].guildId == guild
    ensures |board| == Ranking.LimitCount(limit, GuildSize(s, guild))
  {
    var board := Ranking.TopN(GuildRecords(s, guild), KeyOf(field), limit);
    Ranking.TopNMembers(GuildRecords(s, guild), KeyOf(field), limit, board);
    Ranking.TopNProperties(GuildRecords(s, guild), KeyOf(field), limit, board);
    board
  }

  /** Whatever order ties come in, an XP leaderboard starts with a document
      that no document of the guild out-scores. */
  lemma LeaderboardHeadIsTop(s: Levels, guild: GuildId, limit: int, board: Levels)
    requires Ranking.IsTopN(GuildRecords(s, guild), XpKey, limit, board)
    requires |board| > 0
    ensures forall j :: 0 <= j < |s| && s[j].guildId == guild ==> s[j].xp <= board[0].xp
  {
    var g := GuildRecords(s, guild);
    Ranking.TopNProperties(g, XpKey, limit, board);
    forall j | 0 <= j < |s| && s[j].guildId == guild
      ensures s[j].xp <= board[0].xp
    {
      var x := s[j];
      assert x in g;
      if x in multiset(board) {
        var k :| 0 <= k < |board| && board[k] == x;
        if k > 0 {
          assert Ranking.KeyLeq(XpKey(board[k]), XpKey(board[0]));
        }
      } else {
        assert x in multiset(g) - multiset(board);
        assert Ranking.KeyLeq(XpKey(x), XpKey(board[0]));
      }
    }
  }

  /** With one document per pair, whoever heads the XP leaderboard has rank 1. */
  lemma LeaderboardHeadHasRankOne(s: Levels, guild: GuildId, limit: int, board: Levels)
    requires Documents.UniqueKeys(s, Pair)
    requires Ranking.IsTopN(GuildRecords(s, guild), XpKey, limit, board)
    requires |board| > 0
    ensures GetUserRank(s, board[0].userId, guild) == Some(1)
  {
    var g := GuildRecords(s, guild);
    LeaderboardHeadIsTop(s, guild, limit, board);
    Ranking.TopNMembers(g, XpKey, limit, board);
    assert board[0] in g;
    assert board[0] in multiset(s);
    var k :| 0 <= k < |s| && s[k] == board[0];
    Documents.FindFirstUnique(s, Pair, k);
    assert Pair(s[k]) == (board[0].userId, guild);
    RankOneIffTop(s, board[0].userId, guild);
  }

  // ---------------------------------------------------------------------
  // get_level_stats

  /** The quantities the `$group` stage sums over the guild's documents;
      `$avg` and `$max` skip documents without a level. */
  datatype Metric = TotalXp | TotalMessages | LevelSum | LevelCount

  function Contribution(r: LevelRecord, guild: GuildId, m: Metric): int {
    if r.guildId != guild then 0
    else match m
      case TotalXp => r.xp
      case TotalMessages => r.messageCount
      case LevelSum => r.level.GetOr(0)
      case LevelCount => if r.level.Some? then 1 else 0
  }

  function GuildTotal(s: Levels, guild: GuildId, m: Metric): int {
    if |s| == 0 then 0
    else GuildTotal(s[..|s| - 1], guild, m) + Contribution(s[|s| - 1], guild, m)
  }

  /** Replacing one document changes a total by the difference of the two contributions. */
  lemma {:induction false} GuildTotalReplace(s: Levels, guild: GuildId, m: Metric, i: nat, x: LevelRecord)
    requires i < |s|
    ensures GuildTotal(s[i := x], guild, m) == GuildTotal(s, guild, m) - Contribution(s[i], guild, m) + Contribution(x, guild, m)
  {
    var s' := s[i := x];
    if i == |s| - 1 {
      assert s'[..|s'| - 1] == s[..|s| - 1];
    } else {
      assert s'[..|s'| - 1] == s[..|s| - 1][i := x];
      GuildTotalReplace(s[..|s| - 1], guild, m, i, x);
    }
  }

  lemma GuildTotalAppend(s: Levels, guild: GuildId, m: Metric, x: LevelRecord)
    ensures GuildTotal(s + [x], guild, m) == GuildTotal(s, guild, m) + Contribution(x, guild, m)
  {
    assert (s + [x])[..|s|] == s;
  }

  lemma {:induction false} GuildSizeReplace(s: Levels, guild: GuildId, i: nat, x: LevelRecord)
    requires i < |s| && x.guildId == s[i].guildId
    ensures GuildSize(s[i := x], guild) == GuildSize(s, guild)
  {
    var s' := s[i := x];
    if i == |s| - 1 {
      assert s'[..|s'| - 1] == s[..|s| - 1];
    } else {
      assert s'[..|s'| - 1] == s[..|s| - 1][i := x];
      GuildSizeReplace(s[..|s| - 1], guild, i, x);
    }
  }

  lemma {:induction false} GuildSizeZero(s: Levels, guild: GuildId)
    ensures GuildSize(s, guild) == 0 <==> forall j :: 0 <= j < |s| ==> s[j].guildId != guild
  {
    if |s| > 0 {
      var init := s[..|s| - 1];
      GuildSizeZero(init, guild);
      assert forall j :: 0 <= j < |s| - 1 ==> s[j] == init[j];
    }
  }

  /** The highest level among the guild's documents that have one. */
  function MaxLevel(s: Levels, guild: GuildId): (top: Option<int>)
    ensures top.None? <==> forall j :: 0 <= j < |s| && s[j].guildId == guild ==> s[j].level.None?
    ensures top.Some? ==> exists j :: 0 <= j < |s| && s[j].guildId == guild && s[j].level == top
    ensures forall j :: 0 <= j < |s| && s[j].guildId == guild && s[j].level.Some? ==>
              top.Some? && s[j].level.value <= top.value
  {
    if |s| == 0 then None
    else
      var init := s[..|s| - 1];
      var last := s[|s| - 1];
      var rest := MaxLevel(init, guild);
      assert forall j :: 0 <= j < |s| - 1 ==> s[j] == init[j];
      if last.guildId != guild || last.level.None? then rest
      else if rest.Some? && last.level.value <= rest.value then rest
      else last.level
  }

  datatype LevelStats = LevelStats(
    totalUsers: nat,
    totalMessages: int,
    totalXp: int,
    avgLevel: Option<real>,
    maxLevel: Option<int>)

  /** MongoDB's `$avg` over the values that are present: none when there are none. */
  function Mean(sum: int, count: int): (m: Option<real>)
    ensures m.Some? <==> count != 0
    ensures m.Some? ==> m.value * count as real == sum as real
  {
    if count == 0 then None else Some(sum as real / count as real)
  }

  /** `get_level_stats`: nothing when the guild has no documents; otherwise
      the document count, the XP and message sums, the mean and maximum of
      the levels that are present.  The mean is an exact ratio here. */
  function GetLevelStats(s: Levels, guild: GuildId): (stats: Option<LevelStats>)
    ensures stats.None? <==> forall j :: 0 <= j < |s| ==> s[j].guildId != guild
    ensures stats.Some? ==> stats.value.totalUsers == |GuildRecords(s, guild)|
    ensures stats.Some? ==> stats.value.totalXp == GuildTotal(s, guild, TotalXp)
    ensures stats.Some? ==> stats.value.totalMessages == GuildTotal(s, guild, TotalMessages)
    ensures stats.Some? ==> (stats.value.maxLevel.None? <==> stats.value.avgLevel.None?)
    ensures stats.Some? ==>
              forall j :: 0 <= j < |s| && s[j].guildId == guild && s[j].level.Some? ==>
                stats.value.maxLevel.Some? && s[j].level.value <= stats.value.maxLevel.value
    ensures stats.Some? ==> stats.value.maxLevel == MaxLevel(s, guild)
    ensures stats.Some? ==> stats.value.avgLevel == Mean(GuildTotal(s, guild, LevelSum), GuildTotal(s, guild, LevelCount))
  {
    GuildSizeZero(s, guild);
    LevelCountZero(s, guild);
    if GuildSize(s, guild) == 0 then None
    else
      var count := GuildTotal(s, guild, LevelCount);
      var avg := Mean(GuildTotal(s, guild, LevelSum), count);
      Some(LevelStats(GuildSize(s, guild), GuildTotal(s, guild, TotalMessages), GuildTotal(s, guild, TotalXp), avg, MaxLevel(s, guild)))
  }

  lemma {:induction false} LevelCountZero(s: Levels, guild: GuildId)
    ensures GuildTotal(s, guild, LevelCount) >= 0
    ensures GuildTotal(s, guild, LevelCount) == 0 <==> forall j :: 0 <= j < |s| && s[j].guildId == guild ==> s[j].level.None?
  {
    if |s| > 0 {
      var init := s[..|s| - 1];
      LevelCountZero(init, guild);
      assert forall j :: 0 <= j < |s| - 1 ==> s[j] == init[j];
    }
  }

  /** Statistics track `update_user_xp` exactly: the guild's XP total grows
      by the XP gained, its message total by one, and its user count by one
      only when the pair was unseen. */
  lemma StatsAfterUpdateXp(s: Levels, user: UserId, guild: GuildId, gained: int, newLevel: Option<int>, now: Timestamp)
    ensures var s' := UpdateUserXp(s, user, guild, gained, newLevel, now);
            var before := GetLevelStats(s, guild);
            var after := GetLevelStats(s', guild);
            && after.Some?
            && after.value.totalXp == (if before.Some? then before.value.totalXp else 0) + gained
            && after.value.totalMessages == (if before.Some? then before.value.totalMessages else 0) + 1
            && after.value.totalUsers == (if before.Some? then before.value.totalUsers else 0) + (if Present(s, user, guild) then 0 else 1)
  {
    var s' := UpdateUserXp(s, user, guild, gained, newLevel, now);
    TotalsAfterUpdateXp(s, user, guild, gained, newLevel, now);
    GuildSizeZero(s, guild);
    GuildSizeZero(s', guild);
    if GuildSize(s, guild) == 0 {
      GuildTotalZeroWhenAbsent(s, guild, TotalXp);
      GuildTotalZeroWhenAbsent(s, guild, TotalMessages);
    }
  }

  /** The sums behind `StatsAfterUpdateXp`. */
  lemma TotalsAfterUpdateXp(s: Levels, user: UserId, guild: GuildId, gained: int, newLevel: Option<int>, now: Timestamp)
    ensures var s' := UpdateUserXp(s, user, guild, gained, newLevel, now);
            && GuildTotal(s', guild, TotalXp) == GuildTotal(s, guild, TotalXp) + gained
            && GuildTotal(s', guild, TotalMessages) == GuildTotal(s, guild, TotalMessages) + 1
            && GuildSize(s', guild) == GuildSize(s, guild) + (if Present(s, user, guild) then 0 else 1)
  {
    var s' := UpdateUserXp(s, user, guild, gained, newLevel, now);
    match Documents.FindFirst(s, Pair, (user, guild))
    case Some(i) =>
      var r := Bumped(s[i], gained, newLevel, now);
      assert s' == s[i := r];
      GuildSizeReplace(s, guild, i, r);
      GuildTotalReplace(s, guild, TotalXp, i, r);
      GuildTotalReplace(s, guild, TotalMessages, i, r);
    case None =>
      var r := Upserted(user, guild, gained, newLevel, now);
      assert s' == s + [r];
      assert s'[..|s|] == s;
      GuildTotalAppend(s, guild, TotalXp, r);
      GuildTotalAppend(s, guild, TotalMessages, r);
  }

  lemma {:induction false} GuildTotalZeroWhenAbsent(s: Levels, guild: GuildId, m: Metric)
    requires forall j :: 0 <= j < |s| ==> s[j].guildId != guild
    ensures GuildTotal(s, guild, m) == 0
  {
    if |s| > 0 {
      GuildTotalZeroWhenAbsent(s[..|s| - 1], guild, m);
    }
  }

  /** `update_user_xp` on one guild leaves another guild's statistics as they were. */
  lemma OtherGuildStatsUnchanged(s: Levels, user: UserId, guild: GuildId, gained: int, newLevel: Option<int>, now: Timestamp, other: GuildId)
    requires other != guild
    ensures GetLevelStats(UpdateUserXp(s, user, guild, gained, newLevel, now), other) == GetLevelStats(s, other)
  {
    var s' := UpdateUserXp(s, user, guild, gained, newLevel, now);
    match Documents.FindFirst(s, Pair, (user, guild))
    case Some(i) =>
      var r := Bumped(s[i], gained, newLevel, now);
      assert s' == s[i := r];
      GuildSizeReplace(s, other, i, r);
      GuildTotalReplace(s, other, TotalXp, i, r);
      GuildTotalReplace(s, other, TotalMessages, i, r);
      GuildTotalReplace(s, other, LevelSum, i, r);
      GuildTotalReplace(s, other, LevelCount, i, r);
      MaxLevelOtherGuild(s, other, i, r);
      GuildSizeZero(s, other);
      GuildSizeZero(s', other);
    case None =>
      var r := Upserted(user, guild, gained, newLevel, now);
      assert s' == s + [r];
      assert s'[..|s|] == s;
      GuildTotalAppend(s, other, TotalXp, r);
      GuildTotalAppend(s, other, TotalMessages, r);
      GuildTotalAppend(s, other, LevelSum, r);
      GuildTotalAppend(s, other, LevelCount, r);
      GuildSizeZero(s, other);
      GuildSizeZero(s', other);
  }

  /** Replacing a document of one guild does not move another guild's maximum level. */
  lemma {:induction false} MaxLevelOtherGuild(s: Levels, other: GuildId, i: nat, x: LevelRecord)
    requires i < |s| && x.guildId == s[i].guildId && x.guildId != other
    ensures MaxLevel(s[i := x], other) == MaxLevel(s, other)
  {
    var s' := s[i := x];
    if i == |s| - 1 {
      assert s'[..|s'| - 1] == s[..|s| - 1];
      assert s'[|s'| - 1].guildId != other && s[|s| - 1].guildId != other;
    } else {
      assert s'[..|s'| - 1] == s[..|s| - 1][i := x];
      assert s'[|s'| - 1] == s[|s| - 1];
      MaxLevelOtherGuild(s[..|s| - 1], other, i, x);
    }
  }

  /** `get_user_level_data` leaves every total alone and adds a user only for an unseen pair. */
  lemma StatsAfterGetUserLevelData(s: Levels, user: UserId, guild: GuildId, now: Timestamp)
    ensures var s' := GetUserLevelData(s, user, guild, now).levels;
            && GuildTotal(s', guild, TotalXp) == GuildTotal(s, guild, TotalXp)
            && GuildTotal(s', guild, TotalMessages) == GuildTotal(s, guild, TotalMessages)
            && GuildSize(s', guild) == GuildSize(s, guild) + (if Present(s, user, guild) then 0 else 1)
  {
    var f := GetUserLevelData(s, user, guild, now);
    if !Present(s, user, guild) {
      assert f.levels[..|s|] == s;
      GuildTotalAppend(s, guild, TotalXp, f.record);
      GuildTotalAppend(s, guild, TotalMessages, f.record);
    }
  }
}

=== FILE: log_fields.dfy ===
/** How message text is shown in the message-log channel
    (`log_user_message`, `on_message_delete`, `on_message_edit` in bot/main.py). */
module LogFields {
  import opened Types

  /** Shown in place of a message that has no text. */
  const Placeholder: string := "*[No text content]*"

  /** Appended to text that had to be cut. */
  const Ellipsis: string := "..."

  /** Field limit for posted and deleted messages. */
  const MessageLimit: nat := 1024

  /** Field limit for each side of an edit. */
  const EditLimit: nat := 512

  /** `s` starts with `p`. */
  predicate IsPrefix(p: string, s: string) {
    |p| <= |s| && s[..|p|] == p
  }

  /** The text of a log field with room for `limit` characters: empty text
      becomes the placeholder, and text longer than the limit keeps its
      first `limit - 3` characters followed by an ellipsis. */
  function FieldValue(content: string, limit: nat): (shown: string)
    requires |Ellipsis| <= limit
    ensures 0 < |shown| <= limit
    ensures 0 < |content| <= limit ==> shown == content
    ensures content == [] && |Placeholder| <= limit ==> shown == Placeholder
    ensures limit < |content| ==>
      |shown| == limit && IsPrefix(shown[..limit - |Ellipsis|], content) && shown[limit - |Ellipsis|..] == Ellipsis
  {
    var text := if content == [] then Placeholder else content;
    if |text| > limit then text[..limit - |Ellipsis|] + Ellipsis else text
  }

  /** The "Message" and "Deleted Message" fields. */
  function MessageField(content: string): (shown: string)
    ensures 0 < |shown| <= MessageLimit
  {
    FieldValue(content, MessageLimit)
  }

  /** The "Before" and "After" fields of an edit log. */
  function EditField(content: string): (shown: string)
    ensures 0 < |shown| <= EditLimit
  {
    FieldValue(content, EditLimit)
  }

  /** Cutting is idempotent: a field value is shown as it stands. */
  lemma FieldValueIdempotent(content: string, limit: nat)
    requires |Ellipsis| <= limit
    ensures FieldValue(FieldValue(content, limit), limit) == FieldValue(content, limit)
  {
  }

  /** Text within the limit is shown unchanged; longer text fills the field
      exactly with 1021 kept characters; empty text shows the placeholder. */
  lemma MessageFieldCases(content: string)
    ensures 0 < |content| <= 1024 ==> MessageField(content) == content
    ensures |content| > 1024 ==>
              |MessageField(content)| == 1024 && MessageField(content) == content[..1021] + "..."
    ensures content == [] ==> MessageField(content) == Placeholder
  {
  }

  /** The same rule at the edit limit: 509 kept characters. */
  lemma EditFieldCases(content: string)
    ensures 0 < |content| <= 512 ==> EditField(content) == content
    ensures |content| > 512 ==>
              |EditField(content)| == 512 && EditField(content) == content[..509] + "..."
    ensures content == [] ==> EditField(content) == Placeholder
  {
  }

  /** An edit is logged only for a human author whose text changed, and
      only once the message-log channel exists; the result is the pair of
      Before/After field values. */
  function EditLog(hasLogChannel: bool, authorIsBot: bool, before: string, after: string): (fields: Option<(string, string)>)
    ensures fields.Some? <==> hasLogChannel && !authorIsBot && before != after
    ensures fields.Some? ==> |fields.value.0| <= EditLimit && |fields.value.1| <= EditLimit
    ensures fields.Some? && 0 < |before| <= EditLimit ==> fields.value.0 == before
    ensures fields.Some? && 0 < |after| <= EditLimit ==> fields.value.1 == after
    ensures fields.Some? ==> fields.value == (EditField(before), EditField(after))
  {
    if authorIsBot || before == after then None
    else if !hasLogChannel then None
    else Some((EditField(before), EditField(after)))
  }

  /** Deleting a message is logged for human authors only, and only once the
      message-log channel exists. */
  function DeleteLog(hasLogChannel: bool, authorIsBot: bool, content: string): (field: Option<string>)
    ensures field.Some? <==> hasLogChannel && !authorIsBot
    ensures field.Some? ==> |field.value| <= MessageLimit
    ensures field.Some? && 0 < |content| <= MessageLimit ==> field.value == content
    ensures field.Some? ==> field.value == MessageField(content)
  {
    if authorIsBot then None
    else if !hasLogChannel then None
    else Some(MessageField(content))
  }

  /** Deleting a message whose text is an earlier log field logs that same
      field again: the logged text is already in its final form. */
  lemma DeleteLogStable(content: string)
    ensures var field := DeleteLog(true, false, content);
            field.Some? && DeleteLog(true, false, field.value) == field
  {
    FieldValueIdempotent(content, MessageLimit);
  }

  /** An edit that is logged cannot show two identical texts unless cutting
      made them equal: two different texts within the limit stay different. */
  lemma EditLogDistinguishesShortTexts(before: string, after: string)
    requires 0 < |before| <= EditLimit && 0 < |after| <= EditLimit && before != after
    ensures EditLog(true, false, before, after) == Some((before, after))
  {
  }
}

=== FILE: member_count.dfy ===
/** The member-count channel (bot/main.py): its name encodes the member
    count, it is found by name prefix, and it is renamed only when the name
    would change. */
module MemberCount {
  import opened Types
  import opened Numerals
  import Config

  const Separator: string := "-"

  /** `f"{MEMBER_COUNT_CHANNEL}-{count}"`. */
  function ChannelName(count: nat): (name: string)
    ensures |name| > |Config.MemberCountChannel + Separator|
    ensures name[..|Config.MemberCountChannel + Separator|] == Config.MemberCountChannel + Separator
  {
    Config.MemberCountChannel + Separator + NatToString(count)
  }

  /** Reads a member count back out of a channel name written by `ChannelName`. */
  function CountOf(name: string): (count: Option<nat>)
  {
    var p := Config.MemberCountChannel + Separator;
    if |p| < |name| && name[..|p|] == p && AllDigits(name[|p|..]) then Some(DigitsValue(name[|p|..]))
    else None
  }

  /** Every channel name carries its count. */
  lemma CountOfChannelName(count: nat)
    ensures CountOf(ChannelName(count)) == Some(count)
  {
    var p := Config.MemberCountChannel + Separator;
    assert ChannelName(count)[|p|..] == NatToString(count);
    DigitsValueOfNatToString(count);
  }

  /** Different counts give different names. */
  lemma ChannelNameInjective(a: nat, b: nat)
    requires ChannelName(a) == ChannelName(b)
    ensures a == b
  {
    CountOfChannelName(a);
    CountOfChannelName(b);
  }

  /** `update_member_count_channel`: the new name, or `None` when the
      current name already shows the count (no rename is issued). */
  function Rename(current: string, count: nat): (newName: Option<string>)
    ensures newName.None? <==> CountOf(current) == Some(count) && current == ChannelName(count)
    ensures newName.Some? ==> CountOf(newName.value) == Some(count) && newName.value != current
    ensures newName.Some? ==> newName.value == ChannelName(count)
  {
    CountOfChannelName(count);
    if current == ChannelName(count) then None else Some(ChannelName(count))
  }

  /** The name after an update, whether or not a rename was issued. */
  function NameAfter(current: string, count: nat): string {
    Rename(current, count).GetOr(current)
  }

  /** Updating twice with the same count renames at most once. */
  lemma RenameIdempotent(current: string, count: nat)
    ensures Rename(NameAfter(current, count), count) == None
  {
    CountOfChannelName(count);
  }

  predicate HasCountPrefix(name: string) {
    |Config.MemberCountChannel| <= |name| && name[..|Config.MemberCountChannel|] == Config.MemberCountChannel
  }

  /** The first channel, from position `from` on, whose name starts with the
      member-count prefix (the search in `setup_member_count_channel`). */
  function FindCountChannel(channels: seq<string>, from: nat): (found: Option<nat>)
    requires from <= |channels|
    decreases |channels| - from
    ensures found.Some? ==> from <= found.value < |channels| && HasCountPrefix(channels[found.value])
    ensures found.Some? ==> forall j :: from <= j < found.value ==> !HasCountPrefix(channels[j])
    ensures found.None? ==> forall j :: from <= j < |channels| ==> !HasCountPrefix(channels[j])
  {
    if from == |channels| then None
    else if HasCountPrefix(channels[from]) then Some(from)
    else FindCountChannel(channels, from + 1)
  }

  datatype SetupAction =
    | Create(name: string)
    | Reuse(index: nat, rename: Option<string>)

  /** `setup_member_count_channel`: reuse the first channel with the prefix
      (renaming it if its count is stale) or create one named after the count. */
  function Setup(channels: seq<string>, count: nat): (action: SetupAction)
    ensures action.Create? <==> forall j :: 0 <= j < |channels| ==> !HasCountPrefix(channels[j])
    ensures action.Create? ==> CountOf(action.name) == Some(count)
    ensures action.Reuse? ==> action.index < |channels| && HasCountPrefix(channels[action.index])
    ensures action.Reuse? ==> forall j :: 0 <= j < action.index ==> !HasCountPrefix(channels[j])
    ensures action.Reuse? ==> action.rename == Rename(channels[action.index], count)
    ensures action.Reuse? ==> CountOf(NameAfter(channels[action.index], count)) == Some(count)
    ensures action.Create? ==> action.name == ChannelName(count)
  {
    CountOfChannelName(count);
    match FindCountChannel(channels, 0)
    case None => Create(ChannelName(count))
    case Some(i) => Reuse(i, Rename(channels[i], count))
  }

  /** The channel list once a setup action has been carried out. */
  function Apply(channels: seq<string>, action: SetupAction): seq<string>
    requires action.Reuse? ==> action.index < |channels|
  {
    match action
    case Create(name) => channels + [name]
    case Reuse(i, rename) => channels[i := rename.GetOr(channels[i])]
  }

  /** Setting up twice with the same count changes nothing the second time:
      the channel chosen first is found again and needs no rename. */
  lemma SetupSettles(channels: seq<string>, count: nat)
    ensures var action := Setup(channels, count);
            var after := Apply(channels, action);
            Setup(after, count) == Reuse(if action.Create? then |channels| else action.index, None)
  {
    var action := Setup(channels, count);
    var after := Apply(channels, action);
    var name := ChannelName(count);
    assert HasCountPrefix(name) by {
      assert name[..|Config.MemberCountChannel + Separator|] == Config.MemberCountChannel + Separator;
      assert name[..|Config.MemberCountChannel|] == (Config.MemberCountChannel + Separator)[..|Config.MemberCountChannel|];
    }
    var i := if action.Create? then |channels| else action.index;
    assert i < |after| && after[i] == NameAfter(if action.Create? then name else channels[i], count) by {
      if action.Create? {
        assert Rename(name, count) == None;
      }
    }
    assert HasCountPrefix(after[i]);
    assert forall j :: 0 <= j < i ==> after[j] == channels[j];
    RenameIdempotent(if action.Create? then name else channels[i], count);
    FirstPrefixIsFound(after, i);
  }

  /** The search returns the first prefixed channel. */
  lemma FirstPrefixIsFound(channels: seq<string>, i: nat)
    requires i < |channels| && HasCountPrefix(channels[i])
    requires forall j :: 0 <= j < i ==> !HasCountPrefix(channels[j])
    ensures FindCountChannel(channels, 0) == Some(i)
  {
  }

  /** The prefix search also accepts unrelated channels whose names merely
      begin with "members", and then renames them. */
  lemma PrefixSearchAcceptsOtherChannels()
    ensures Setup(["membership-perks"], 3) == Reuse(0, Some("members-3"))
  {
    assert HasCountPrefix("membership-perks") by {
      assert "membership-perks"[..7] == "members";
    }
    assert NatToString(3) == "3";
    assert ChannelName(3) == "members-3";
  }
}

=== FILE: numerals.dfy ===
/** Decimal numerals as Python's `int()` reads them and `str()` writes them,
    restricted to an optional sign followed by ASCII digits. */
module Numerals {
  import opened Types

  predicate IsDigit(c: char) {
    '0' <= c <= '9'
  }

  predicate AllDigits(s: string) {
    forall i :: 0 <= i < |s| ==> IsDigit(s[i])
  }

  function DigitValue(c: char): nat
    requires IsDigit(c)
  {
    (c as int) - ('0' as int)
  }

  function DigitChar(d: nat): (c: char)
    requires d < 10
    ensures IsDigit(c) && DigitValue(c) == d
  {
    (('0' as int) + d) as char
  }

  /** The value of a digit string, most significant digit first. */
  function DigitsValue(s: string): nat
    requires AllDigits(s)
  {
    if |s| == 0 then 0 else 10 * DigitsValue(s[..|s| - 1]) + DigitValue(s[|s| - 1])
  }

  /** `str(n)` for a non-negative integer: canonical, without leading zeros. */
  function NatToString(n: nat): (s: string)
    ensures 0 < |s| && AllDigits(s)
    ensures s[0] == '0' <==> n == 0
    ensures n == 0 ==> |s| == 1
  {
    if n < 10 then [DigitChar(n)] else NatToString(n / 10) + [DigitChar(n % 10)]
  }

  /** `str(n)` for any integer. */
  function IntToString(n: int): (s: string)
    ensures 0 < |s|
    ensures s[0] == '-' <==> n < 0
  {
    if n < 0 then "-" + NatToString(-n) else NatToString(n)
  }

  /** The strings `int()` accepts in this model: an optional sign and at least one digit. */
  predicate IsIntLiteral(s: string) {
    SignLength(s) < |s| && AllDigits(s[SignLength(s)..])
  }

  /** One for a leading `+` or `-`, zero otherwise. */
  function SignLength(s: string): nat {
    if 0 < |s| && (s[0] == '+' || s[0] == '-') then 1 else 0
  }

  /** Python's `int(s)`; `None` stands for the `ValueError` it raises. */
  function ParseInt(s: string): (r: Option<int>)
    ensures r.Some? <==> IsIntLiteral(s)
    ensures r.Some? && r.value < 0 ==> s[0] == '-'
    ensures r.Some? && 0 < |s| && s[0] == '-' ==> r.value <= 0
    ensures r.Some? && s[0] == '-' ==> r.value == -(DigitsValue(s[1..]) as int)
    ensures r.Some? && s[0] != '-' ==> r.value == DigitsValue(s[SignLength(s)..])
  {
    if 0 < |s| && AllDigits(s) then Some(DigitsValue(s))
    else if 1 < |s| && s[0] == '+' && AllDigits(s[1..]) then Some(DigitsValue(s[1..]))
    else if 1 < |s| && s[0] == '-' && AllDigits(s[1..]) then Some(-(DigitsValue(s[1..]) as int))
    else None
  }

  /** Reading back a written natural number gives the number. */
  lemma {:induction false} DigitsValueOfNatToString(n: nat)
    ensures DigitsValue(NatToString(n)) == n
  {
    if n >= 10 {
      var prefix := NatToString(n / 10);
      var s := prefix + [DigitChar(n % 10)];
      assert s[..|s| - 1] == prefix;
      DigitsValueOfNatToString(n / 10);
    }
  }

  /** `int(str(n)) == n` for every integer. */
  lemma ParseIntOfIntToString(n: int)
    ensures ParseInt(IntToString(n)) == Some(n)
  {
    if n < 0 {
      var t := NatToString(-n);
      var s := "-" + t;
      assert IntToString(n) == s;
      assert s[1..] == t;
      assert !AllDigits(s) by { assert !IsDigit(s[0]); }
      DigitsValueOfNatToString(-n);
      assert ParseInt(s) == Some(-(DigitsValue(t) as int));
    } else {
      DigitsValueOfNatToString(n);
    }
  }

  /** Writing is injective, so a written number names exactly one value. */
  lemma IntToStringInjective(a: int, b: int)
    requires IntToString(a) == IntToString(b)
    ensures a == b
  {
    ParseIntOfIntToString(a);
    ParseIntOfIntToString(b);
  }
}

=== FILE: permissions.dfy ===
/** Who may do what: the administrator predicate `is_user_admin` and the
    restricted-channel gate of `on_message` (bot/main.py). */
module Permissions {
  import opened Types
  import Config

  /** The author of a command or message.  A guild member carries its role
      names and the guild-wide administrator permission; a plain user (for
      instance in a direct message) has no roles at all. */
  datatype Author =
    | Member(id: UserId, roleNames: seq<string>, administrator: bool)
    | PlainUser(id: UserId)

  /** `any(x in ys for x in xs)`: some element of `xs` occurs in `ys`. */
  function AnyIn(xs: seq<string>, ys: seq<string>): (found: bool)
    ensures found <==> exists i :: 0 <= i < |xs| && xs[i] in ys
  {
    if |xs| == 0 then false
    else if xs[0] in ys then true
    else
      var rest := AnyIn(xs[1..], ys);
      assert forall i :: 1 <= i < |xs| ==> xs[i] == xs[1..][i - 1];
      rest
  }

  /** `is_user_admin`: false for a missing author or one without roles;
      otherwise true exactly when one of the author's role names is an admin
      role or the author holds the administrator permission. */
  function IsUserAdmin(user: Option<Author>): (admin: bool)
    ensures user.None? || user.value.PlainUser? ==> !admin
    ensures user.Some? && user.value.Member? ==>
              (admin <==> user.value.administrator ||
                          exists i :: 0 <= i < |user.value.roleNames| && user.value.roleNames[i] in Config.AdminRoles)
  {
    match user
    case None => false
    case Some(PlainUser(_)) => false
    case Some(Member(_, roles, administrator)) => AnyIn(roles, Config.AdminRoles) || administrator
  }

  /** The restricted-channel gate: a message is deleted exactly when its
      channel is restricted and the author holds none of the roles allowed
      to post there. */
  function MustDelete(channel: string, authorRoles: seq<string>): (delete: bool)
    ensures channel !in Config.RestrictedChannels ==> !delete
    ensures channel in Config.RestrictedChannels ==>
              (delete <==> forall i :: 0 <= i < |Config.RestrictedChannels[channel]| ==>
                                         Config.RestrictedChannels[channel][i] !in authorRoles)
  {
    channel in Config.RestrictedChannels && !AnyIn(Config.RestrictedChannels[channel], authorRoles)
  }

  /** In the rules channel only admins and moderators may post. */
  lemma RulesChannelGate()
    ensures MustDelete("rules", ["devGuy"])
    ensures MustDelete("rules", [])
    ensures !MustDelete("rules", ["devGuy", "Moderator"])
    ensures !MustDelete("general", [])
  {
    assert "rules" in Config.RestrictedChannels;
    assert Config.RestrictedChannels["rules"] == ["Admin", "Moderator"];
    assert "Admin" != "devGuy" && "Moderator" != "devGuy";
    assert "general" != "rules";
  }

  /** Anyone holding an admin role passes the gate of every restricted
      channel, because every restricted channel admits exactly the admin roles. */
  lemma AdminsPassEveryGate(channel: string, author: Author)
    requires author.Member? && IsUserAdmin(Some(author)) && !author.administrator
    ensures !MustDelete(channel, author.roleNames)
  {
    if channel in Config.RestrictedChannels {
      assert Config.RestrictedChannels.Keys == {"rules"};
      assert channel == "rules";
      var i :| 0 <= i < |author.roleNames| && author.roleNames[i] in Config.AdminRoles;
      var j :| 0 <= j < |Config.AdminRoles| && Config.AdminRoles[j] == author.roleNames[i];
      assert Config.RestrictedChannels[channel][j] in author.roleNames;
    }
  }

  lemma AdminExamples()
    ensures !IsUserAdmin(None)
    ensures !IsUserAdmin(Some(PlainUser(7)))
    ensures !IsUserAdmin(Some(Member(7, [], false)))
    ensures IsUserAdmin(Some(Member(7, [], true)))
    ensures IsUserAdmin(Some(Member(7, ["@everyone", "Moderator"], false)))
    ensures !IsUserAdmin(Some(Member(7, ["admin"], false)))
  {
    assert ["@everyone", "Moderator"][1] == "Moderator";
    assert "admin" != "Admin";
  }
}

=== FILE: purge.dfy ===
/** The `!purge` command (bot/main.py): bounds on the amount, how many
    messages are requested from the channel, and the count it reports. */
module Purge {

  type MessageId = nat

  const MinAmount: int := 1
  const MaxAmount: int := 100

  datatype PurgeResult =
    | OutOfRange
    | Purged(requested: nat, deleted: seq<MessageId>, remaining: seq<MessageId>, reported: int)

  /** Purging a channel whose history is listed newest first (the command
      message itself on top).  Amounts outside [1, 100] are refused and
      delete nothing; otherwise `amount + 1` messages are requested, the
      newest ones are deleted, and the count reported excludes the command. */
  function PurgeChannel(history: seq<MessageId>, amount: int): (r: PurgeResult)
    ensures r.OutOfRange? <==> amount < MinAmount || MaxAmount < amount
    ensures r.Purged? ==> r.requested == amount + 1
    ensures r.Purged? ==> r.deleted + r.remaining == history
    ensures r.Purged? ==> |r.deleted| <= r.requested
    ensures r.Purged? && |r.deleted| < r.requested ==> r.remaining == []
    ensures r.Purged? ==> r.reported == |r.deleted| - 1
  {
    if amount < MinAmount || amount > MaxAmount then OutOfRange
    else
      var n := if amount + 1 < |history| then amount + 1 else |history|;
      assert history[..n] + history[n..] == history;
      Purged(amount + 1, history[..n], history[n..], n - 1)
  }

  /** With the command message in the history, the reported count lies
      between 0 and the amount asked for, and falls short of it only when
      the channel ran out of messages. */
  lemma ReportedCountBounds(history: seq<MessageId>, amount: int)
    requires 0 < |history|
    requires MinAmount <= amount <= MaxAmount
    ensures 0 <= PurgeChannel(history, amount).reported <= amount
    ensures PurgeChannel(history, amount).reported < amount ==> PurgeChannel(history, amount).remaining == []
  {
  }

  lemma PurgeExamples()
    ensures PurgeChannel([9, 8, 7], 0).OutOfRange?
    ensures PurgeChannel([9, 8, 7], 101).OutOfRange?
    ensures PurgeChannel([9, 8, 7], 1) == Purged(2, [9, 8], [7], 1)
    ensures PurgeChannel([9, 8, 7], 100) == Purged(101, [9, 8, 7], [], 2)
  {
    assert [9, 8, 7][..2] == [9, 8];
    assert [9, 8, 7][2..] == [7];
    assert [9, 8, 7][..3] == [9, 8, 7];
  }
}

=== FILE: ranking.dfy ===
/** `find(...).sort(field, -1).limit(n)` as the document store evaluates it:
    order by a numeric field, largest first, then keep the first `n`.
    Documents with equal keys may come back in any order, so the result is
    specified as a relation (`IsTopN`) and one sort is given that meets it. */
module Ranking {
  import opened Types

  /** The store's ordering of sort-key values: a missing field sorts below every number. */
  predicate KeyLeq(a: Option<int>, b: Option<int>) {
    a.None? || (b.Some? && a.value <= b.value)
  }

  /** Non-increasing in `key`. */
  ghost predicate SortedDesc<T>(s: seq<T>, key: T -> Option<int>) {
    forall i, j :: 0 <= i < j < |s| ==> KeyLeq(key(s[j]), key(s[i]))
  }

  /** How many documents `.limit(limit)` lets through out of `n`: a limit of
      zero means no limit, and a negative limit acts as its absolute value. */
  function LimitCount(limit: int, n: nat): (k: nat)
    ensures k <= n
    ensures limit == 0 ==> k == n
    ensures limit != 0 ==> k <= Abs(limit)
    ensures k == n || k == Abs(limit)
  {
    if limit == 0 || n <= Abs(limit) then n else Abs(limit)
  }

  function Abs(x: int): nat {
    if x < 0 then -x else x
  }

  /** Only the size of a limit matters, not its sign. */
  lemma LimitCountSign(limit: int, n: nat)
    ensures LimitCount(-limit, n) == LimitCount(limit, n)
  {
  }

  /** A larger collection never yields fewer documents under the same limit. */
  lemma LimitCountMonotone(limit: int, n: nat, m: nat)
    requires n <= m
    ensures LimitCount(limit, n) <= LimitCount(limit, m)
  {
  }

  /** Without a limit the query returns every document, only reordered. */
  lemma NoLimitKeepsAll<T(!new)>(s: seq<T>, key: T -> Option<int>, r: seq<T>)
    requires IsTopN(s, key, 0, r)
    ensures multiset(r) == multiset(s)
  {
    var p :| |p| == |s| && multiset(p) == multiset(s) && SortedDesc(p, key) && r == p[..LimitCount(0, |s|)];
    assert p[..|p|] == p;
  }

  /** `r` is what the query may return: the first `LimitCount` documents of
      some ordering of `s` that is sorted by `key`, largest first. */
  ghost predicate IsTopN<T(!new)>(s: seq<T>, key: T -> Option<int>, limit: int, r: seq<T>) {
    exists p: seq<T> {:trigger SortedDesc(p, key)} ::
      && |p| == |s|
      && multiset(p) == multiset(s)
      && SortedDesc(p, key)
      && r == p[..LimitCount(limit, |s|)]
  }

  /** Puts `x` into a sequence after the leading elements whose key is at least `x`'s. */
  function Insert<T>(x: T, s: seq<T>, key: T -> Option<int>): (r: seq<T>)
    ensures multiset(r) == multiset(s) + multiset{x}
    ensures |r| == |s| + 1
    ensures forall k :: 0 <= k < |r| ==> r[k] == x || r[k] in s
  {
    if |s| == 0 then [x]
    else if KeyLeq(key(x), key(s[0])) then
      assert s == [s[0]] + s[1..];
      [s[0]] + Insert(x, s[1..], key)
    else
      [x] + s
  }

  /** Inserting into a sorted sequence keeps it sorted. */
  lemma {:induction false} InsertSorted<T>(x: T, s: seq<T>, key: T -> Option<int>)
    requires SortedDesc(s, key)
    ensures SortedDesc(Insert(x, s, key), key)
  {
    if |s| > 0 && KeyLeq(key(x), key(s[0])) {
      var tail := Insert(x, s[1..], key);
      InsertSorted(x, s[1..], key);
      forall k | 0 <= k < |tail|
        ensures KeyLeq(key(tail[k]), key(s[0]))
      {
        if tail[k] != x {
          var m :| 1 <= m < |s| && s[m] == tail[k];
        }
      }
      var r := [s[0]] + tail;
      assert forall j :: 1 <= j < |r| ==> r[j] == tail[j - 1];
    }
  }

  /** An insertion sort, largest key first. */
  function Sort<T>(s: seq<T>, key: T -> Option<int>): (r: seq<T>)
    ensures multiset(r) == multiset(s)
    ensures |r| == |s|
    ensures SortedDesc(r, key)
  {
    if |s| == 0 then []
    else
      assert s == [s[0]] + s[1..];
      InsertSorted(s[0], Sort(s[1..], key), key);
      Insert(s[0], Sort(s[1..], key), key)
  }

  /** One admissible answer to the query: sort, then cut at the limit. */
  function TopN<T(!new)>(s: seq<T>, key: T -> Option<int>, limit: int): (r: seq<T>)
    ensures IsTopN(s, key, limit, r)
  {
    var p := Sort(s, key);
    p[..LimitCount(limit, |s|)]
  }

  /** What every admissible answer satisfies: it has `LimitCount` documents,
      all taken from `s`, sorted largest first, and no document left out has a
      larger key than any document returned. */
  lemma TopNProperties<T(!new)>(s: seq<T>, key: T -> Option<int>, limit: int, r: seq<T>)
    requires IsTopN(s, key, limit, r)
    ensures |r| == LimitCount(limit, |s|)
    ensures multiset(r) <= multiset(s)
    ensures SortedDesc(r, key)
    ensures forall x, y :: x in multiset(s) - multiset(r) && y in r ==> KeyLeq(key(x), key(y))
  {
    var p: seq<T> :| |p| == |s| && multiset(p) == multiset(s) && SortedDesc(p, key) && r == p[..LimitCount(limit, |s|)];
    var n := LimitCount(limit, |s|);
    assert p == p[..n] + p[n..];
    assert multiset(p) == multiset(r) + multiset(p[n..]);
    assert multiset(s) - multiset(r) == multiset(p[n..]);
    forall x, y | x in multiset(s) - multiset(r) && y in r
      ensures KeyLeq(key(x), key(y))
    {
      assert x in p[n..];
      var a :| 0 <= a < |p[n..]| && p[n..][a] == x;
      var b :| 0 <= b < |r| && r[b] == y;
      assert p[n + a] == x && p[b] == y;
    }
  }

  /** Every document in the answer comes from the queried documents. */
  lemma TopNMembers<T(!new)>(s: seq<T>, key: T -> Option<int>, limit: int, r: seq<T>)
    requires IsTopN(s, key, limit, r)
    ensures forall i :: 0 <= i < |r| ==> r[i] in s
  {
    TopNProperties(s, key, limit, r);
    forall i | 0 <= i < |r|
      ensures r[i] in s
    {
      assert r[i] in multiset(r);
    }
  }

  /** A document whose key beats every other queried document comes first in
      every admissible answer that returns anything. */
  lemma {:induction false} StrictMaximumComesFirst<T(!new)>(s: seq<T>, key: T -> Option<int>, limit: int, r: seq<T>, x: T)
    requires IsTopN(s, key, limit, r)
    requires x in s
    requires forall y :: y in s && y != x ==> !KeyLeq(key(x), key(y))
    requires 0 < LimitCount(limit, |s|)
    ensures |r| > 0 && r[0] == x
  {
    TopNProperties(s, key, limit, r);
    TopNMembers(s, key, limit, r);
    assert x in multiset(s);
  }
}

=== FILE: resources.dfy ===
/** The `resources` collection (bot/database.py). */
module Resources {
  import opened Types
  import Ranking

  /** How many resources `!resources` shows. */
  const ShownLimit: int := 5

  datatype Resource = Resource(
    userId: UserId,
    username: string,
    title: string,
    content: string,
    url: Option<string>,
    guildId: Option<GuildId>,
    timestamp: Timestamp)

  function Newest(r: Resource): Option<int> { Some(r.timestamp) }

  /** `store_resource`: appends one resource stamped with the current time. */
  function StoreResource(s: seq<Resource>, user: UserId, username: string, title: string, content: string,
                         url: Option<string>, guild: Option<GuildId>, now: Timestamp): (s': seq<Resource>)
    ensures |s'| == |s| + 1 && s'[..|s|] == s
    ensures s'[|s|].title == title && s'[|s|].content == content && s'[|s|].timestamp == now
    ensures s'[|s|].userId == user && s'[|s|].username == username && s'[|s|].url == url && s'[|s|].guildId == guild
  {
    var s' := s + [Resource(user, username, title, content, url, guild, now)];
    assert s'[..|s|] == s;
    s'
  }

  /** `get_resources`: every resource, newest first, at most `limit`. */
  function GetResources(s: seq<Resource>, limit: int): (r: seq<Resource>)
    ensures Ranking.IsTopN(s, Newest, limit, r)
    ensures |r| == Ranking.LimitCount(limit, |s|)
  {
    var r := Ranking.TopN(s, Newest, limit);
    Ranking.TopNProperties(s, Newest, limit, r);
    r
  }

  /** `!resources` shows at most five, and none older than any it leaves out. */
  lemma ShownResources(s: seq<Resource>)
    ensures var shown := GetResources(s, ShownLimit);
            && |shown| <= 5
            && (|s| >= 5 ==> |shown| == 5)
            && forall x, y :: x in multiset(s) - multiset(shown) && y in shown ==> x.timestamp <= y.timestamp
  {
    var shown := GetResources(s, ShownLimit);
    Ranking.TopNProperties(s, Newest, ShownLimit, shown);
    forall x, y | x in multiset(s) - multiset(shown) && y in shown
      ensures x.timestamp <= y.timestamp
    {
      assert Ranking.KeyLeq(Newest(x), Newest(y));
    }
  }

  /** A resource stored after every other one heads every non-empty listing. */
  lemma NewResourceShownFirst(s: seq<Resource>, user: UserId, username: string, title: string, content: string,
                              url: Option<string>, guild: Option<GuildId>, now: Timestamp, limit: int)
    requires forall j :: 0 <= j < |s| ==> s[j].timestamp < now
    requires limit != 0
    ensures var s' := StoreResource(s, user, username, title, content, url, guild, now);
            var shown := GetResources(s', limit);
            |shown| > 0 && shown[0] == s'[|s|]
  {
    var s' := StoreResource(s, user, username, title, content, url, guild, now);
    var x := s'[|s|];
    assert s' == s + [x];
    forall y | y in s' && y != x
      ensures !Ranking.KeyLeq(Newest(x), Newest(y))
    {
      assert y in s;
    }
    Ranking.StrictMaximumComesFirst(s', Newest, limit, GetResources(s', limit), x);
  }
}

=== FILE: role_command.dfy ===
/** The `!role` command (`request_role` in bot/main.py): four checks in a
    fixed order, then the grant and its two database writes. */
module RoleCommand {
  import opened Types
  import Config
  import Documents
  import UserStore
  import RoleRequests

  datatype Outcome =
    | MissingName
    | NotAvailable
    | AlreadyHas
    | NotOnServer
    | GrantFailed
    | Granted(storedRoles: seq<string>)

  /** The checks, in order: a name was given, it is self-assignable, the
      author does not hold it yet, and the guild has such a role.  When all
      pass, the stored role list is the author's roles with the new one appended. */
  function Decide(roleName: Option<string>, authorRoles: seq<string>, guildRoles: seq<string>): (o: Outcome)
    ensures o == MissingName <==> roleName.None? || roleName.value == ""
    ensures o == NotAvailable <==> roleName.Some? && roleName.value != "" && roleName.value !in Config.AvailableRoles
    ensures o == AlreadyHas <==>
              roleName.Some? && roleName.value in Config.AvailableRoles && roleName.value in authorRoles
    ensures o == NotOnServer <==>
              roleName.Some? && roleName.value in Config.AvailableRoles && roleName.value !in authorRoles
              && roleName.value !in guildRoles
    ensures o.Granted? <==>
              roleName.Some? && roleName.value in Config.AvailableRoles && roleName.value !in authorRoles
              && roleName.value in guildRoles
    ensures o.Granted? ==>
              && |o.storedRoles| == |authorRoles| + 1
              && o.storedRoles[..|authorRoles|] == authorRoles
              && o.storedRoles[|authorRoles|] == roleName.value
              && multiset(o.storedRoles)[roleName.value] == 1
    ensures o != GrantFailed
  {
    assert "" !in Config.AvailableRoles;
    if roleName.None? || roleName.value == "" then MissingName
    else if roleName.value !in Config.AvailableRoles then NotAvailable
    else if roleName.value in authorRoles then AlreadyHas
    else if roleName.value !in guildRoles then NotOnServer
    else
      var stored := authorRoles + [roleName.value];
      assert stored[..|authorRoles|] == authorRoles;
      assert multiset(authorRoles)[roleName.value] == 0;
      Granted(stored)
  }

  /** The two collections `!role` writes to. */
  datatype RoleDb = RoleDb(users: UserStore.Users, requests: RoleRequests.Requests)

  datatype Reply = Reply(db: RoleDb, outcome: Outcome)

  /** `request_role` end to end.  `granted` says whether adding the role on
      the platform succeeded; when it fails nothing is written.  On success an
      approved request is appended and the author's stored role list (if the
      author has a `users` document in this guild) becomes the new list. */
  function RequestRole(db: RoleDb, author: UserId, username: string, authorRoles: seq<string>, guild: GuildId,
                       guildRoles: seq<string>, roleName: Option<string>, granted: bool, now: Timestamp): (reply: Reply)
    ensures !reply.outcome.Granted? ==> reply.db == db
    ensures !Decide(roleName, authorRoles, guildRoles).Granted? ==> reply.outcome == Decide(roleName, authorRoles, guildRoles)
    ensures reply.outcome == GrantFailed <==> Decide(roleName, authorRoles, guildRoles).Granted? && !granted
    ensures reply.outcome.Granted? ==>
              && granted
              && reply.outcome == Decide(roleName, authorRoles, guildRoles)
              && |reply.db.requests| == |db.requests| + 1
              && reply.db.requests[..|db.requests|] == db.requests
              && RoleRequests.GetUserRoles(reply.db.requests, author) ==
                 RoleRequests.GetUserRoles(db.requests, author) + [reply.db.requests[|db.requests|]]
              && reply.db.requests[|db.requests|].roleName == roleName.value
              && reply.db.requests[|db.requests|].guildId == guild
    ensures reply.outcome.Granted? && UserStore.Present(db.users, author, guild) ==>
              UserStore.RolesOf(reply.db.users, author, guild) == Some(authorRoles + [roleName.value])
    ensures reply.outcome.Granted? && !UserStore.Present(db.users, author, guild) ==> reply.db.users == db.users
    ensures |reply.db.users| == |db.users|
    ensures forall j :: 0 <= j < |db.users| && UserStore.Pair(db.users[j]) != (author, guild) ==> reply.db.users[j] == db.users[j]
    ensures reply.outcome.Granted? ==>
              reply.db.requests[|db.requests|].userId == author && reply.db.requests[|db.requests|].status == RoleRequests.Approved
  {
    match Decide(roleName, authorRoles, guildRoles)
    case Granted(stored) =>
      if !granted then Reply(db, GrantFailed)
      else
        var requests := RoleRequests.StoreRoleRequest(db.requests, author, username, roleName.value, guild, RoleRequests.Approved, now);
        RoleRequests.StoredApprovalIsListed(db.requests, author, username, roleName.value, guild, now);
        Reply(RoleDb(UserStore.UpdateUserRoles(db.users, author, guild, stored), requests), Granted(stored))
    case other => Reply(db, other)
  }

  /** The checks run in order: a name that is not self-assignable is refused
      as such even when the author already holds it and the guild lacks it. */
  lemma ChecksRunInOrder()
    ensures Decide(Some("Admin"), ["Admin"], []) == NotAvailable
    ensures Decide(Some("devGuy"), ["devGuy"], []) == AlreadyHas
    ensures Decide(Some("devGuy"), [], []) == NotOnServer
    ensures Decide(Some("devGuy"), ["@everyone"], ["devGuy"]) == Granted(["@everyone", "devGuy"])
    ensures Decide(Some(""), [], ["devGuy"]) == MissingName
  {
    assert "Admin" !in Config.AvailableRoles;
  }

  /** A successful request cannot be repeated: asking again with the stored
      roles is answered with "already has". */
  lemma GrantIsNotRepeated(roleName: Option<string>, authorRoles: seq<string>, guildRoles: seq<string>)
    requires Decide(roleName, authorRoles, guildRoles).Granted?
    ensures Decide(roleName, Decide(roleName, authorRoles, guildRoles).storedRoles, guildRoles) == AlreadyHas
  {
    var stored := Decide(roleName, authorRoles, guildRoles).storedRoles;
    assert stored[|authorRoles|] == roleName.value;
  }
}

=== FILE: role_requests.dfy ===
/** The `role_requests` collection (bot/database.py): requests are appended,
    their status is updated by user and role name, and a user's approved
    requests are listed. */
module RoleRequests {
  import opened Types
  import Documents

  const Pending: string := "pending"
  const Approved: string := "approved"

  datatype RoleRequest = RoleRequest(
    userId: UserId,
    username: string,
    roleName: string,
    guildId: GuildId,
    status: string,
    timestamp: Timestamp,
    updatedAt: Option<Timestamp>)

  type Requests = seq<RoleRequest>

  /** The filter of `update_role_request_status`: user and role, not guild. */
  function UserRole(r: RoleRequest): (UserId, string) {
    (r.userId, r.roleName)
  }

  /** The filter of `get_user_roles`: user and status. */
  function UserStatus(r: RoleRequest): (UserId, string) {
    (r.userId, r.status)
  }

  /** `store_role_request`: appends one request stamped with the current time. */
  function StoreRoleRequest(s: Requests, user: UserId, username: string, role: string, guild: GuildId, status: string, now: Timestamp): (s': Requests)
    ensures |s'| == |s| + 1 && s'[..|s|] == s
    ensures s'[|s|].userId == user && s'[|s|].username == username && s'[|s|].roleName == role && s'[|s|].guildId == guild
    ensures s'[|s|].status == status && s'[|s|].timestamp == now && s'[|s|].updatedAt.None?
  {
    var s' := s + [RoleRequest(user, username, role, guild, status, now, None)];
    assert s'[..|s|] == s;
    s'
  }

  /** `update_role_request_status`: sets status and update time on the first
      request of this user for this role, whatever its guild; nothing else changes. */
  function UpdateRoleRequestStatus(s: Requests, user: UserId, role: string, status: string, now: Timestamp): (s': Requests)
    ensures |s'| == |s|
    ensures !Documents.Present(s, UserRole, (user, role)) ==> s' == s
    ensures forall j, k :: 0 <= j < k < |s| && s'[j] != s[j] ==> s'[k] == s[k]
    ensures forall j :: 0 <= j < |s| && s'[j] != s[j] ==>
              s'[j] == s[j].(status := status, updatedAt := Some(now)) && UserRole(s[j]) == (user, role)
    ensures Documents.Present(s, UserRole, (user, role)) ==>
              var i := Documents.FindFirst(s, UserRole, (user, role)).value;
              s'[i] == s[i].(status := status, updatedAt := Some(now))
  {
    match Documents.FindFirst(s, UserRole, (user, role))
    case Some(i) => s[i := s[i].(status := status, updatedAt := Some(now))]
    case None => s
  }

  /** `get_user_roles`: the user's approved requests, in the order they were made. */
  function GetUserRoles(s: Requests, user: UserId): (approved: Requests)
    ensures forall i :: 0 <= i < |approved| ==> approved[i].userId == user && approved[i].status == Approved
    ensures forall j :: 0 <= j < |s| && s[j].userId == user && s[j].status == Approved ==> s[j] in approved
    ensures forall x :: multiset(approved)[x] == (if x.userId == user && x.status == Approved then multiset(s)[x] else 0)
  {
    var approved := Documents.Select(s, UserStatus, (user, Approved));
    assert forall j :: 0 <= j < |s| ==> s[j] in multiset(s);
    approved
  }

  /** A request stored as approved is listed last among the user's approved requests. */
  lemma StoredApprovalIsListed(s: Requests, user: UserId, username: string, role: string, guild: GuildId, now: Timestamp)
    ensures var s' := StoreRoleRequest(s, user, username, role, guild, Approved, now);
            GetUserRoles(s', user) == GetUserRoles(s, user) + [s'[|s|]]
  {
    var s' := StoreRoleRequest(s, user, username, role, guild, Approved, now);
    assert s' == s + [s'[|s|]];
    Documents.SelectAppend(s, [s'[|s|]], UserStatus, (user, Approved));
    assert [s'[|s|]][..0] == [];
  }

  /** Approving a pending request makes it show up among the user's approved requests. */
  lemma ApprovalIsListed(s: Requests, user: UserId, role: string, now: Timestamp)
    requires Documents.Present(s, UserRole, (user, role))
    ensures exists k :: 0 <= k < |GetUserRoles(UpdateRoleRequestStatus(s, user, role, Approved, now), user)| &&
                        GetUserRoles(UpdateRoleRequestStatus(s, user, role, Approved, now), user)[k].roleName == role
  {
    var s' := UpdateRoleRequestStatus(s, user, role, Approved, now);
    var i := Documents.FindFirst(s, UserRole, (user, role)).value;
    assert s'[i].userId == user && s'[i].status == Approved && s'[i].roleName == role;
    var listed := GetUserRoles(s', user);
    assert s'[i] in listed;
    var k :| 0 <= k < |listed| && listed[k] == s'[i];
  }

  /** The status update ignores the guild: with the same role requested in
      two guilds, only the earlier request is touched. */
  lemma StatusUpdateIgnoresGuild(now: Timestamp)
    ensures var s := [RoleRequest(5, "ann", "devGuy", 1, Pending, 0, None),
                      RoleRequest(5, "ann", "devGuy", 2, Pending, 1, None)];
            var s' := UpdateRoleRequestStatus(s, 5, "devGuy", Approved, now);
            s'[0].status == Approved && s'[0].guildId == 1 && s'[1] == s[1]
  {
  }
}

=== FILE: types.dfy ===
/** Values shared by every part of the model: optional values, the opaque
    identifiers the chat platform hands out, and timestamps taken from an
    injected clock. */
module Types {

  /** A value that may be absent (Python's None, or a document field that was never written). */
  datatype Option<+T> = None | Some(value: T) {

    /** The value, or `default` when absent (Python's `x or default`). */
    function GetOr(default: T): T {
      match this
      case Some(v) => v
      case None => default
    }
  }

  /** Platform snowflakes; only equality matters to the model. */
  type UserId = nat
  type GuildId = nat

  /** A point in time as delivered by the injected clock (e.g. seconds since the epoch). */
  type Timestamp = int
}

=== FILE: user_store.dfy ===
/** The `users` collection (bot/database.py): the join upsert and the two
    plain updates.  The collection carries a unique index on
    (user_id, guild_id) (mongo-init.js); the operations preserve it. */
module UserStore {
  import opened Types
  import Documents

  datatype UserRecord = UserRecord(
    userId: UserId,
    username: string,
    guildId: GuildId,
    joinDate: Timestamp,
    roles: seq<string>,
    lastActivity: Timestamp)

  type Users = seq<UserRecord>

  function Pair(r: UserRecord): (UserId, GuildId) {
    (r.userId, r.guildId)
  }

  predicate Present(s: Users, user: UserId, guild: GuildId) {
    Documents.Present(s, Pair, (user, guild))
  }

  /** The stored role names of a pair (of its first document), if any. */
  function RolesOf(s: Users, user: UserId, guild: GuildId): Option<seq<string>> {
    match Documents.FindFirst(s, Pair, (user, guild))
    case Some(i) => Some(s[i].roles)
    case None => None
  }

  /** Everything `store_user_join` writes; the join date defaults to now. */
  function Joined(user: UserId, username: string, guild: GuildId, joinDate: Option<Timestamp>, now: Timestamp): UserRecord {
    UserRecord(user, username, guild, joinDate.GetOr(now), [], now)
  }

  /** `store_user_join`: an upsert on the pair that overwrites every stored
      field, so a member who rejoins starts again with no stored roles. */
  function StoreUserJoin(s: Users, user: UserId, username: string, guild: GuildId, joinDate: Option<Timestamp>, now: Timestamp): (s': Users)
    ensures Present(s', user, guild)
    ensures |s'| == |s| + (if Present(s, user, guild) then 0 else 1)
    ensures forall j :: 0 <= j < |s| && Pair(s[j]) != (user, guild) ==> s'[j] == s[j]
    ensures var i := Documents.FindFirst(s', Pair, (user, guild)).value;
            && s'[i].username == username
            && s'[i].roles == []
            && s'[i].lastActivity == now
            && s'[i].joinDate == joinDate.GetOr(now)
    ensures Documents.UniqueKeys(s, Pair) ==> Documents.UniqueKeys(s', Pair)
  {
    var r := Joined(user, username, guild, joinDate, now);
    match Documents.FindFirst(s, Pair, (user, guild))
    case Some(i) =>
      assert s[i := r][i] == r;
      assert forall j :: 0 <= j < i ==> s[i := r][j] == s[j];
      s[i := r]
    case None =>
      assert (s + [r])[|s|] == r;
      assert forall j :: 0 <= j < |s| ==> (s + [r])[j] == s[j];
      s + [r]
  }

  /** `update_user_activity`: not an upsert.  An unseen pair leaves the
      collection as it is; otherwise only that pair's last activity changes. */
  function UpdateUserActivity(s: Users, user: UserId, guild: GuildId, now: Timestamp): (s': Users)
    ensures |s'| == |s|
    ensures !Present(s, user, guild) ==> s' == s
    ensures forall j :: 0 <= j < |s| ==> s'[j] == s[j] || s'[j] == s[j].(lastActivity := now)
    ensures forall j :: 0 <= j < |s| && Pair(s[j]) != (user, guild) ==> s'[j] == s[j]
    ensures Present(s, user, guild) ==>
              s'[Documents.FindFirst(s, Pair, (user, guild)).value].lastActivity == now
  {
    match Documents.FindFirst(s, Pair, (user, guild))
    case Some(i) => s[i := s[i].(lastActivity := now)]
    case None => s
  }

  /** `update_user_roles`: not an upsert.  An unseen pair leaves the
      collection as it is; otherwise only that pair's stored roles change. */
  function UpdateUserRoles(s: Users, user: UserId, guild: GuildId, roles: seq<string>): (s': Users)
    ensures |s'| == |s|
    ensures !Present(s, user, guild) ==> s' == s
    ensures forall j :: 0 <= j < |s| ==> s'[j] == s[j] || s'[j] == s[j].(roles := roles)
    ensures forall j :: 0 <= j < |s| && Pair(s[j]) != (user, guild) ==> s'[j] == s[j]
    ensures Present(s, user, guild) ==> RolesOf(s', user, guild) == Some(roles)
  {
    match Documents.FindFirst(s, Pair, (user, guild))
    case Some(i) =>
      var s' := s[i := s[i].(roles := roles)];
      assert forall j :: 0 <= j < i ==> s'[j] == s[j];
      s'
    case None => s
  }

  /** The two plain updates never create a document. */
  lemma UpdatesDoNotInsert(s: Users, user: UserId, guild: GuildId, now: Timestamp, roles: seq<string>, u: UserId, g: GuildId)
    ensures Present(UpdateUserActivity(s, user, guild, now), u, g) <==> Present(s, u, g)
    ensures Present(UpdateUserRoles(s, user, guild, roles), u, g) <==> Present(s, u, g)
  {
    var a := UpdateUserActivity(s, user, guild, now);
    var b := UpdateUserRoles(s, user, guild, roles);
    assert forall j :: 0 <= j < |s| ==> Pair(a[j]) == Pair(s[j]) && Pair(b[j]) == Pair(s[j]);
  }

  /** Recording activity leaves every pair's stored roles alone. */
  lemma ActivityKeepsRoles(s: Users, user: UserId, guild: GuildId, now: Timestamp, u: UserId, g: GuildId)
    ensures RolesOf(UpdateUserActivity(s, user, guild, now), u, g) == RolesOf(s, u, g)
  {
    var s' := UpdateUserActivity(s, user, guild, now);
    assert forall j :: 0 <= j < |s| ==> Pair(s'[j]) == Pair(s[j]) && s'[j].roles == s[j].roles;
    FindFirstSameKeys(s, s', u, g);
  }

  /** Two collections whose documents have the same keys position by position
      agree on where a pair is first found. */
  lemma FindFirstSameKeys(s: Users, t: Users, u: UserId, g: GuildId)
    requires |s| == |t| && forall j :: 0 <= j < |s| ==> Pair(s[j]) == Pair(t[j])
    ensures Documents.FindFirst(s, Pair, (u, g)) == Documents.FindFirst(t, Pair, (u, g))
  {
    var a := Documents.FindFirst(s, Pair, (u, g));
    var b := Documents.FindFirst(t, Pair, (u, g));
    if a.Some? && b.Some? {
      assert !(a.value < b.value) && !(b.value < a.value);
    }
  }

  /** Rejoining wipes the roles a member had stored. */
  lemma RejoinResetsRoles(s: Users, user: UserId, guild: GuildId, roles: seq<string>, name: string, joinDate: Option<Timestamp>, now: Timestamp)
    ensures RolesOf(StoreUserJoin(UpdateUserRoles(s, user, guild, roles), user, name, guild, joinDate, now), user, guild) == Some([])
  {
  }

  /** With the unique index in force, a join leaves exactly one document for the pair. */
  lemma JoinLeavesOneDocument(s: Users, user: UserId, username: string, guild: GuildId, joinDate: Option<Timestamp>, now: Timestamp)
    requires Documents.UniqueKeys(s, Pair)
    ensures var s' := StoreUserJoin(s, user, username, guild, joinDate, now);
            exists i :: 0 <= i < |s'| && Pair(s'[i]) == (user, guild) &&
                        forall j :: 0 <= j < |s'| && Pair(s'[j]) == (user, guild) ==> j == i
  {
    var s' := StoreUserJoin(s, user, username, guild, joinDate, now);
    var i := Documents.FindFirst(s', Pair, (user, guild)).value;
    assert forall j :: 0 <= j < |s'| && j != i ==> Pair(s'[j]) != Pair(s'[i]);
  }
}

=== FILE: user_sync.dfy ===
/** The `!syncusers` command (bot/main.py): which guild members are new to
    the database, and how many of them were stored. */
module UserSync {
  import opened Types

  /** The members whose id is not among the stored ids, in guild order. */
  function NewUsers(members: seq<UserId>, existing: set<UserId>): (newcomers: seq<UserId>)
    ensures |newcomers| <= |members|
    ensures forall i :: 0 <= i < |newcomers| ==> newcomers[i] !in existing && newcomers[i] in members
    ensures forall i :: 0 <= i < |members| && members[i] !in existing ==> members[i] in newcomers
  {
    if |members| == 0 then []
    else
      var rest := NewUsers(members[..|members| - 1], existing);
      var last := members[|members| - 1];
      assert forall i :: 0 <= i < |members| - 1 ==> members[i] == members[..|members| - 1][i];
      if last in existing then rest else rest + [last]
  }

  /** Selection keeps guild order: the new users of a concatenation are the
      new users of each part, one after the other. */
  lemma {:induction false} NewUsersAppend(a: seq<UserId>, b: seq<UserId>, existing: set<UserId>)
    ensures NewUsers(a + b, existing) == NewUsers(a, existing) + NewUsers(b, existing)
    decreases |b|
  {
    if |b| == 0 {
      assert a + b == a;
    } else {
      var b' := b[..|b| - 1];
      assert (a + b)[..|a + b| - 1] == a + b';
      NewUsersAppend(a, b', existing);
    }
  }

  /** Nothing is selected once every member is stored, and selecting again
      from the selection changes nothing. */
  lemma {:induction false} NewUsersIdempotent(members: seq<UserId>, existing: set<UserId>)
    ensures NewUsers(NewUsers(members, existing), existing) == NewUsers(members, existing)
    decreases |members|
  {
    if |members| > 0 {
      var init := members[..|members| - 1];
      var last := members[|members| - 1];
      NewUsersIdempotent(init, existing);
      if last !in existing {
        NewUsersAppend(NewUsers(init, existing), [last], existing);
        assert [last][..0] == [];
      }
    }
  }

  /** How many of `users` the store accepted. */
  function CountStored(users: seq<UserId>, stored: UserId -> bool): (n: nat)
    ensures n <= |users|
  {
    if |users| == 0 then 0
    else CountStored(users[..|users| - 1], stored) + (if stored(users[|users| - 1]) then 1 else 0)
  }

  /** Status updates fire after every tenth stored member and after the last one. */
  predicate ProgressPoint(position: nat, total: nat) {
    position % 10 == 0 || position == total
  }

  /** Position `p` (1-based) calls for a status update: it is a progress
      point and the member there was stored. */
  predicate Due(p: nat, newcomers: seq<UserId>, stored: UserId -> bool) {
    0 < p <= |newcomers| && ProgressPoint(p, |newcomers|) && stored(newcomers[p - 1])
  }

  /** After the first `i` new users, `progress` lists, in increasing order,
      exactly the positions up to `i` that called for a status update. */
  ghost predicate ProgressUpTo(progress: seq<nat>, newcomers: seq<UserId>, stored: UserId -> bool, i: nat) {
    && (forall k :: 0 <= k < |progress| ==> progress[k] <= i && Due(progress[k], newcomers, stored))
    && (forall k, l :: 0 <= k < l < |progress| ==> progress[k] < progress[l])
    && (forall p: nat :: p <= i && Due(p, newcomers, stored) ==> p in progress)
  }

  /** One more member: its position is added exactly when it is due. */
  lemma ProgressStep(progress: seq<nat>, newcomers: seq<UserId>, stored: UserId -> bool, i: nat)
    requires i < |newcomers| && ProgressUpTo(progress, newcomers, stored, i)
    ensures Due(i + 1, newcomers, stored) ==> ProgressUpTo(progress + [i + 1], newcomers, stored, i + 1)
    ensures !Due(i + 1, newcomers, stored) ==> ProgressUpTo(progress, newcomers, stored, i + 1)
  {
    if Due(i + 1, newcomers, stored) {
      var next := progress + [i + 1];
      assert forall k :: 0 <= k < |progress| ==> next[k] == progress[k];
    }
  }

  /** The sync loop.  `stored(m)` says whether storing member `m` succeeded;
      a failure is counted as an error and the loop moves on.  `progress`
      lists the 1-based positions at which the status message was updated,
      which happens only after a member was stored. */
  method SyncUsers(members: seq<UserId>, existing: set<UserId>, stored: UserId -> bool)
    returns (synced: nat, errors: nat, progress: seq<nat>)
    ensures synced + errors == |NewUsers(members, existing)|
    ensures synced == CountStored(NewUsers(members, existing), stored)
    ensures forall k :: 0 <= k < |progress| ==>
              0 < progress[k] <= |NewUsers(members, existing)| && ProgressPoint(progress[k], |NewUsers(members, existing)|)
    ensures forall k :: 0 <= k < |progress| ==> stored(NewUsers(members, existing)[progress[k] - 1])
    ensures forall k, l :: 0 <= k < l < |progress| ==> progress[k] < progress[l]
    ensures forall p: nat :: Due(p, NewUsers(members, existing), stored) ==> p in progress
  {
    var newcomers := NewUsers(members, existing);
    synced, errors, progress := 0, 0, [];
    var i := 0;
    while i < |newcomers|
      invariant 0 <= i <= |newcomers|
      invariant synced + errors == i
      invariant synced == CountStored(newcomers[..i], stored)
      invariant ProgressUpTo(progress, newcomers, stored, i)
    {
      assert newcomers[..i + 1][..i] == newcomers[..i];
      ProgressStep(progress, newcomers, stored, i);
      if stored(newcomers[i]) {
        synced := synced + 1;
        if ProgressPoint(i + 1, |newcomers|) {
          progress := progress + [i + 1];
        }
      } else {
        errors := errors + 1;
      }
      i := i + 1;
    }
    assert newcomers[..i] == newcomers;
  }

  /** The `Database` methods that bot/database.py defines. */
  const DatabaseMethods: set<string> := {
    "connect", "get_collection", "store_role_request", "update_role_request_status",
    "get_user_roles", "log_admin_action", "store_user_join", "update_user_activity",
    "update_user_roles", "store_bug_report", "get_bug_reports", "update_bug_status",
    "store_resource", "get_resources", "get_user_level_data", "update_user_xp",
    "get_leaderboard", "get_user_rank", "get_level_stats", "close_connection"
  }

  const ReadStoredIds := "get_users_in_database"
  const StoreProfile := "store_user_profile"

  datatype SyncOutcome =
    | NotInServer
    | Failed
    | Completed(synced: nat, errors: nat)

  /** The whole `!syncusers` command against a database object offering
      `methods`.  Calling a method the object lacks raises; the first such
      call is outside the per-member handler and ends the command in the
      failure reply, while a failing store inside the loop counts as an
      error for that member.  `NotInServer` is listed for completeness: the
      admin check that runs first already rejects a direct message, whose
      author has no guild roles, so that reply is never reached. */
  function SyncCommand(methods: set<string>, inServer: bool, members: seq<UserId>,
                       existing: set<UserId>, stored: UserId -> bool): (outcome: SyncOutcome)
    ensures !inServer ==> outcome == NotInServer
    ensures inServer && ReadStoredIds !in methods ==> outcome == Failed
    ensures inServer && ReadStoredIds in methods ==>
              outcome.Completed? && outcome.synced + outcome.errors == |NewUsers(members, existing)|
    ensures outcome.Completed? && StoreProfile !in methods ==> outcome.synced == 0
    ensures outcome.Completed? && StoreProfile in methods ==>
              outcome.synced == CountStored(NewUsers(members, existing), stored)
  {
    if !inServer then NotInServer
    else if ReadStoredIds !in methods then Failed
    else
      var newcomers := NewUsers(members, existing);
      var synced := if StoreProfile in methods then CountStored(newcomers, stored) else CountStored(newcomers, Never);
      NeverStoresNothing(newcomers);
      Completed(synced, |newcomers| - synced)
  }

  function Never(m: UserId): bool { false }

  lemma {:induction false} NeverStoresNothing(users: seq<UserId>)
    ensures CountStored(users, Never) == 0
  {
    if |users| > 0 {
      NeverStoresNothing(users[..|users| - 1]);
    }
  }

  /** As written, the command cannot succeed in any server: the database
      object has no method for reading the stored ids. */
  lemma SyncAsWrittenAlwaysFails(members: seq<UserId>, existing: set<UserId>, stored: UserId -> bool)
    ensures SyncCommand(DatabaseMethods, true, members, existing, stored) == Failed
  {
  }

  /** With the two missing methods supplied, the command completes and its
      counts are those of the sync loop `SyncUsers`. */
  lemma SyncWithMethodsCompletes(members: seq<UserId>, existing: set<UserId>, stored: UserId -> bool)
    ensures var outcome := SyncCommand(DatabaseMethods + {ReadStoredIds, StoreProfile}, true, members, existing, stored);
            && outcome.Completed?
            && outcome.synced == CountStored(NewUsers(members, existing), stored)
            && outcome.synced + outcome.errors == |NewUsers(members, existing)|
  {
  }

  lemma SyncExample()
    ensures NewUsers([1, 2, 3, 2], {2}) == [1, 3]
  {
    assert [1, 2, 3, 2][..3] == [1, 2, 3];
    assert [1, 2, 3][..2] == [1, 2];
    assert [1, 2][..1] == [1];
    assert [1][..0] == [];
  }
}
